=== FILE: README.md ===
# mapx in Dafny

A verified model of the Go library `mapx`. The library works on `map[string]any` / `[]any` trees. It has three parts:

- **the differ** (`Differ.Do`): walks two map-rooted trees in lock-step and reports every difference as a record. A record holds an action (`Add`, `Change` or `Remove`), a rendered path such as `a2[0].b2.(e5.f1)`, and the old and new values. The records are then sorted by action and path.
- **the getter** (`GetItems`, `Get` and the typed getters): looks up a nested value. The path is a `'.'`-separated string or a list of segments.
- **the setter** (`SetItems`): assigns a nested value by the same paths.

Values are the datatype `Tree = Map | List | Leaf(Scalar)`. Go's `reflect.DeepEqual` becomes datatype equality. The type assertions `.(map[string]any)` and `.([]any)` become the constructor tests `Map?` and `List?`. A composite whose dynamic Go type (the type held in the `any`) is not the generic one (`map[string]string`, `[]map[string]any`) is the scalar `Typed(goType, content)`. The differ and the getter treat it as an atom, as the source does.

Files, in dependency order:

| file | module | contents |
|---|---|---|
| `wrappers.dfy` | `Wrappers` | `Option`, `Result` |
| `values.dfy` | `Values` | `int64`, `Scalar`, `Tree` |
| `strings.dfy` | `Strings` | `strings.Compare`, `strconv.Itoa`, `strings.Trim` and `strings.Split` with a one-character argument |
| `paths.dfy` | `Paths` | `Node`, `NewIdxNode`, `NewKeyNode`, and path rendering (`NewDiffRet`'s string builder and trim) |
| `records.dfy` | `Records` | `DiffRet`, the comparator `DiffRetList.Less`, and sorting |
| `positions.dfy` | `Positions` | `At`, the subtree at a node path; shared by the differ's properties, the getter and the setter |
| `walk.dfy` | `DiffWalk` | the reference walk: which records one comparison collects, as a pure function |
| `differ.dfy` | `Differ` | the `Differ` state, `NewDiffer`, `Do`, `handleMap`, `handleList` and `handle` as methods, with one method per source loop |
| `props.dfy` | `DiffProps` | what the records mean: faithfulness, reflexivity, symmetry, map and list levels |
| `getter.dfy` | `Getter` | `GetItems`, `getItems`, `Get`, and `GetBool` … `GetMap` |
| `setter.dfy` | `Setter` | `SetItems`, `setItems` |

Design of the differ model:

- `DiffWalk.Walk` is the reference semantics. It lists the records of each map key (over the union of both key sets) and of each list position (up to the longer length). Its records are structured entries with node paths rather than rendered strings.
- The methods in `Differ` follow the source's loops: intersection, addition and deletion for maps; shared prefix, added tail and removed tail for lists.
- Each method is proved to collect the same multiset of entries as the walk.
- `Do` renders the entries with `NewDiffRet` and returns a sorted permutation of the rendered records.

Behaviour of the source that the model keeps, though it is easy to misread:

- The actions are labelled `Add`, `Change` and `Remove`. Their string order is what gives the group order.
- `strings.Trim(…, ".")` strips every leading **and** trailing dot, not only the root's leading dot. For example, an empty key at the end of a path disappears.
- Rendered paths are **not** unique within one result. The key `"a.b"` and the two keys `"(a"`, `"b)"` both render as `(a.b)`. The key `"x[0]"` and the key `"x"` followed by index 0 both render as `x[0]` (`Paths.DottedCollisions`). For this reason, every differ property is stated on node paths, and `Do` is specified as a sorted permutation rather than as one fixed order.
- `Do` takes two maps, as `NewDiffer` does, not two arbitrary trees.
- A `Differ` keeps its records: `Do` appends to the list `NewDiffer` created and never clears it. A second `Do` on the same differ therefore returns every record of the first run twice (`Differ.Run`, `Differ.RunTwice`). `Differ.Do` is a run of a fresh differ.

## Model

| member | source | states |
|---|---|---|
| Strings.Compare | differ.go:96-98 | the three-way string comparison is 0 exactly for equal strings, and otherwise -1 or 1 |
| Strings.LessLexicographic | differ.go:96-98 | string order is lexicographic: `a` sorts before `b` exactly when `a` is a proper prefix of `b` or has the smaller character at the first position where they differ |
| Strings.LessTotal | differ.go:96-98 | string order is irreflexive, asymmetric and total on distinct strings |
| Strings.LessTransitive | differ.go:96-98 | string order is transitive |
| Strings.Itoa | differ.go:36 | the decimal rendering of an index is canonical (no leading zero) and reads back as the index |
| Strings.TrimInfix | differ.go:68 | trimming dots leaves an infix of the input with only dots cut from either side, and the result neither starts nor ends with a dot |
| Strings.TrimIdempotent | differ.go:68 | trimming a trimmed path changes nothing |
| Strings.TrimmedUnique | differ.go:68 | cutting the runs of dots from both ends of a string has exactly one result, so the description of a record's path text above determines it |
| Strings.Split | getter.go:17 | splitting at '.' yields at least one part, no part contains '.', and joining the parts with '.' gives back the string |
| Strings.SplitJoin | getter.go:17 | splitting a '.'-join of dot-free segments gives back the segments |
| Paths.NewIdxNode | differ.go:35-37 | an index node stores the canonical decimal text of the index |
| Paths.NewIdxNodeInjective | differ.go:35-37 | distinct positions give distinct index nodes |
| Paths.NodeTextInjective | differ.go:56-66 | one step's text determines the step: a dotted key is wrapped in parentheses, so it never renders like an undotted key or an index |
| Paths.RawPathAppend | differ.go:54-67 | rendering a node path is compositional: a concatenated path renders as the concatenation of its parts |
| Paths.DottedInfix | differ.go:54-68 | the rendered path is the raw step text with a run of dots cut from each end and nothing else: an infix of the raw text, with only dots before and after it, that neither starts nor ends with a dot |
| Paths.DottedExample | differ.go:53-69 | the path c2, 1, e5.f1 renders as `c2[1].(e5.f1)` |
| Paths.DottedCollisions | differ.go:58-68 | two different node paths can render to the same string |
| Records.NewDiffRet | differ.go:53-70 | a record keeps its action and both values as given, and its path text is the raw text of its steps (`.key`, `.(key)`, `[index]`) with the runs of dots at both ends cut off: an infix of the raw text, with only dots outside it, that neither starts nor ends with a dot |
| Records.RetLess | differ.go:95-101 | the comparator orders all additions before all changes before all removals, and ties within an action by path string |
| Records.RetTie | differ.go:95-101 | two records tie exactly when they have the same action and the same rendered path |
| Records.RetLessWeakOrder | differ.go:95-101 | the comparator is a strict weak order, which `sort.Sort` needs |
| Records.SortedGroups | differ.go:95-101 | in a sorted result, actions never go backwards, and within one action paths never go backwards |
| Records.Insert | differ.go:123 | inserting into a sorted list keeps it sorted and adds exactly the new record |
| Records.SortRets | differ.go:123 | sorting returns a sorted permutation of its input |
| DiffWalk.GatherSplit | differ.go:129-161 | the records of a map level do not depend on the order in which keys are visited |
| DiffWalk.GatherUnion | differ.go:128-161 | the records for disjoint key sets together are the records of each set |
| DiffWalk.GatherMember | differ.go:145-161 | a map level holds a record exactly when one of its keys contributes it |
| DiffWalk.UptoMember | differ.go:170-185 | a list level holds a record exactly when one of its positions contributes it |
| Differ.Run | differ.go:108-125 | a run appends this comparison's rendered records to those the differ already holds and keeps the sorted result: the output is sorted and is the old records plus the reference walk's records |
| Differ.RunTwice | differ.go:115-125 | running one differ twice returns every record of the first run twice, so the second result is twice as long whenever the maps differ |
| Differ.Do | differ.go:115-125 | the result is sorted, is a permutation of the rendered records of the reference walk, and is empty exactly when the two maps are equal |
| Differ.HandleMap | differ.go:127-162 | intersection, addition and deletion together collect exactly the reference walk's records for two maps, no two of them at the same node path |
| Differ.HandleSharedKeys | differ.go:145-149 | recursing into each shared key collects exactly those keys' records |
| Differ.ReportAddedKeys | differ.go:151-155 | each key only the new map has adds exactly that key's record |
| Differ.ReportRemovedKeys | differ.go:157-161 | each key only the old map has adds exactly that key's record |
| Differ.HandleList | differ.go:164-186 | the three index loops together collect exactly the reference walk's records for two lists, no two of them at the same node path |
| Differ.HandleSharedIndices | differ.go:170-173 | recursing below the shorter length collects exactly those positions' records |
| Differ.ReportAddedIndices | differ.go:175-179 | the new list's tail extends the records to every position of the new list |
| Differ.ReportRemovedIndices | differ.go:181-185 | the old list's tail extends the records to every position of either list |
| Differ.Handle | differ.go:188-207 | one position collects exactly the reference walk's records, no two of them at the same node path |
| DiffProps.WalkFaithful | differ.go:145-206 | every record describes a real difference at its path. An addition's path exists only in the new tree and the record carries nil and the whole new subtree. A removal is the reverse. A change's path exists in both trees, with two unequal values that are not both maps or both lists |
| DiffProps.WalkEmptyIff | differ.go:188-207 | a comparison reports nothing exactly when the two trees are equal; in particular, diffing a tree against itself reports nothing |
| DiffProps.WalkNodesDistinct | differ.go:127-207 | a comparison reports each position at most once: no two records carry the same node path, because every key and every index is appended or recursed into exactly once |
| DiffProps.DistinctPermutation | differ.go:123 | reordering records keeps their node paths distinct |
| DiffProps.WalkSwap | differ.go:127-186 | comparing new against old gives, in the same order, every record with additions and removals exchanged and change values swapped |
| DiffProps.OwnPath | differ.go:188-207 | a position reports a record at its own path exactly when the values differ and are not both maps or both lists; that record is a change carrying both whole values |
| DiffProps.MapLevel | differ.go:128-161 | an addition is reported at a key exactly when only the new map has it, and a removal exactly when only the old map has it, each with the key's whole value |
| DiffProps.MapLevelRecurse | differ.go:145-149 | below a key both maps have, the map reports exactly what comparing the two values reports |
| DiffProps.ListLevelAdded | differ.go:175-179 | an addition is reported at index i exactly when len(old) <= i < len(new), carrying the new element |
| DiffProps.ListLevelRemoved | differ.go:181-185 | a removal is reported at index i exactly when len(new) <= i < len(old), carrying the old element |
| DiffProps.ListLevelRecurse | differ.go:170-173 | below the shorter length, the list reports exactly what comparing the two elements reports |
| DiffProps.ListOwnStep | differ.go:175-185 | a record one index below a list is an addition only past the old list's end and a removal only past the new list's end |
| DiffProps.ListNeverBoth | differ.go:164-186 | one list never reports both an addition and a removal at its own positions |
| Getter.Segments | getter.go:15-22 | a string path becomes a non-empty list of dot-free parts that join back, with '.', into the string (which fixes them as the split at every '.'); a segment list is used as given; any other argument is the invalid-path-type error |
| Getter.LookUp | getter.go:25-39 | the lookup fails with the empty-path error exactly for no segments, and otherwise succeeds exactly when the key steps lead to a subtree, returning that subtree (nil leaves included) |
| Getter.LookUpAtLevel | getter.go:29-38 | the lookup stops at the first segment that is absent (key-not-exist) or, before the last, not a generic map (val-not-map), naming that segment |
| Getter.GetItems | getter.go:14-23 | only a path argument of another type gives the invalid-path-type error, a string path never gives the empty-path error, and success returns exactly the subtree at the path |
| Getter.JoinedPath | getter.go:15-19 | a string path is the same path as the list of its dot-free segments |
| Getter.Get | getter.go:42-48 | the value at the path if there is one, otherwise the default |
| Getter.GetBool | getter.go:51-56 | true exactly when the value at the path is the boolean true |
| Getter.GetInt64 | getter.go:59-64 | the value at the path when it is an int64, otherwise 0 |
| Getter.GetFloat64 | getter.go:67-72 | the value at the path when it is a float64, otherwise zero |
| Getter.GetStr | getter.go:75-80 | the value at the path when it is a string, otherwise "" |
| Getter.GetList | getter.go:83-88 | the value at the path when it is a generic list, otherwise no elements |
| Getter.GetMap | getter.go:91-96 | the value at the path when it is a generic map, otherwise no entries |
| Setter.Assign | setter.go:28-40 | the assignment fails with the empty-path error exactly for no segments. It succeeds exactly when every segment but the last leads through an existing generic map. On success, only the first key changes at the top level, at most that one key is added, and no intermediate map is created |
| Setter.AssignAtLevel | setter.go:34-37 | a failing assignment names the first segment before the last that is absent or not a generic map |
| Setter.SetThenGet | setter.go:28-40 | after a successful assignment, looking up the same segments yields the assigned value |
| Setter.AssignFrame | setter.go:33-35 | every path that parts from the assigned path at some level leads to the same subtree as before |
| Setter.SetFailsLikeGet | setter.go:28-40 | the setter succeeds wherever the getter does, and a segment it reports is one the getter reports as missing or not a map |
| Setter.SetItems | setter.go:11-26 | only a path argument of another type gives the invalid-path-type error. It succeeds exactly when the path has segments and all but the last lead through generic maps, and then it is the assignment at those segments: every other top-level key keeps its value, and the getter finds the assigned value at the same path. Its errors are the invalid-path-type, empty-path and not-exist-or-not-map errors |
| Setter.JoinedSetPath | setter.go:14-17 | a string path assigns at the same place as the list of its dot-free segments |

## Left out

- `DiffRet.String` (differ.go:73-84): the model does not cover it, because it depends on Go's `%v` formatting of arbitrary values.
- Floating point: a `float64` leaf is an opaque bit pattern compared for equality. NaN (which `DeepEqual` never finds equal to itself) and the equality of +0 and -0 are not modelled.
- Go map iteration order: the walk visits keys in an arbitrary fixed order. Everything proved about the output is insensitive to that order.
- Differ.Do: the result is specified as a sorted permutation, not as the exact order `sort.Sort` gives to records that tie (same action and same rendered path). `sort.Sort` is not stable, and the model does not fix the order of ties.
- Differ.Do: models one run of a fresh differ, `NewDiffer(o, n).Do()`. What a reused differ returns is stated by `Differ.Run`, whose input state carries the records of earlier runs.
- Differ.Do: the records are collected with their node paths and rendered by `NewDiffRet` just before sorting, not at the moment each record is appended. Rendering is a pure function of the path, so the records are the same.
- `Exists` is not part of this model. Its test shows that it is plain key membership, and the model uses `k in m`.
- In-place mutation: the setter returns the updated root map instead of writing into the caller's maps. Aliasing between nested Go maps, and writes into nil maps, are not modelled. On error, the caller keeps the original map, just as the source writes nothing.
- Getter.GetList: the source returns a nil slice when the value is missing or has the wrong type, although its comment promises `[]any{}`. A Dafny sequence cannot tell nil from empty, so both are the empty sequence.
- Getter.GetMap: as for `GetList`, a nil map and an empty map are both the empty map.
- Getter.GetFloat64: the zero value is the all-zero bit pattern (+0.0). No float arithmetic is modelled.
- Values: the error values carry the offending key, not Go's formatted message text. `errors.Is` identity is modelled only for `ErrInvalidPathType`.
- Values: a nil and an empty non-generic composite (`map[string]string(nil)` and `map[string]string{}`), and nil or empty maps and slices inside one, are the same value. Where `reflect.DeepEqual` tells them apart, the source reports a Change that the model does not, and `DiffProps.WalkEmptyIff` calls such trees equal.
- Go's type system: only the generic map, the generic list, the scalar kinds the getters test for, and an opaque `Typed` composite are distinguished.
- String order: strings are sequences of Unicode code points. For valid UTF-8, Go's byte-wise `strings.Compare` gives the same order. Invalid UTF-8 is not modelled.

=== FILE: differ.dfy ===
/** The differ as the source runs it (`Differ.Do`, `handleMap`, `handleList`,
    `handle`): walk both trees in lock-step, collect a record for every
    difference, then sort.

    The source appends to a shared accumulator `d.rets`; here each method
    returns the records it collects and the caller appends them, which
    collects the same records in the same order. The records are kept with
    their node paths during the walk and rendered by `NewDiffRet` (a pure
    function of the entry) just before sorting. */
module Differ {
  import opened Values
  import opened Paths
  import opened Records
  import opened DiffWalk
  import DiffProps

  /** `Differ`: the two maps and the records collected so far. The field
      names differ from the source's `old` and `new`, which are reserved
      words here. */
  datatype DifferState = DifferState(oldMap: map<string, Tree>, newMap: map<string, Tree>,
                                     rets: seq<DiffRet>)

  /** `NewDiffer`: a differ for two maps that has collected nothing yet. */
  function NewDiffer(o: map<string, Tree>, n: map<string, Tree>): DifferState {
    DifferState(o, n, [])
  }

  /** `(*Differ).Do`: appends this comparison's records to those the differ
      already holds, sorts the lot, keeps it and returns it. The records are
      never cleared, so running a differ a second time reports every record
      of the first run again. */
  method Run(d: DifferState) returns (next: DifferState, records: seq<DiffRet>)
    ensures next == d.(rets := records)
    ensures Sorted(records)
    ensures multiset(records)
         == multiset(d.rets) + multiset(RenderAll(Walk(Map(d.oldMap), Map(d.newMap), [])))
  {
    var collected := HandleMap(d.oldMap, d.newMap, []);
    MapSeqMultiset(Render, collected, Walk(Map(d.oldMap), Map(d.newMap), []));
    records := SortRets(d.rets + RenderAll(collected));
    next := d.(rets := records);
  }

  /** Compares two map-rooted trees with a fresh differ: the records are the
      reference walk's, in canonical order. Diffing a tree against itself,
      and only then, reports nothing. The walk reports each position at most
      once (`DiffProps.WalkNodesDistinct`, which `HandleMap` carries as a
      postcondition); rendered paths may still coincide (see
      `Paths.DottedCollisions`). */
  method Do(o: map<string, Tree>, n: map<string, Tree>) returns (rets: seq<DiffRet>)
    ensures Sorted(rets)
    ensures multiset(rets) == multiset(RenderAll(Walk(Map(o), Map(n), [])))
    ensures rets == [] <==> o == n
  {
    var d := NewDiffer(o, n);
    var _, r := Run(d);
    rets := r;
    DiffProps.WalkEmptyIff(Map(o), Map(n), []);
    assert |rets| == |multiset(rets)| == |RenderAll(Walk(Map(o), Map(n), []))|;
  }

  /** Running the same differ twice: the second result holds every record
      of the first twice over. */
  method RunTwice(o: map<string, Tree>, n: map<string, Tree>)
    returns (first: seq<DiffRet>, second: seq<DiffRet>)
    ensures multiset(second) == multiset(first) + multiset(first)
    ensures o != n ==> |second| == 2 * |first| > 0
  {
    ghost var found := multiset(RenderAll(Walk(Map(o), Map(n), [])));
    var d := NewDiffer(o, n);
    d, first := Run(d);
    assert multiset(first) == found;
    d, second := Run(d);
    assert multiset(second) == found + found;
    if o != n {
      DiffProps.WalkEmptyIff(Map(o), Map(n), []);
      assert |first| == |multiset(first)| == |found| > 0;
      assert |second| == |multiset(second)| == |found| + |found|;
    }
  }

  /** Splits the keys into intersection, addition and deletion; recurses into
      the first and reports the other two. */
  method HandleMap(o: map<string, Tree>, n: map<string, Tree>, nodes: seq<Node>)
    returns (rets: seq<Entry>)
    ensures multiset(rets) == multiset(Walk(Map(o), Map(n), nodes))
    ensures DiffProps.DistinctPaths(rets)
    decreases Map(o), 1
  {
    var intersection := o.Keys * n.Keys;
    var addition := n.Keys - o.Keys;
    var deletion := o.Keys - n.Keys;
    rets := HandleSharedKeys(o, n, nodes, intersection);
    rets := ReportAddedKeys(o, n, nodes, addition, rets);
    rets := ReportRemovedKeys(o, n, nodes, deletion, rets);
    KeyPartition(o.Keys, n.Keys);
    MapWalkUnion(o, n, nodes, intersection, addition);
    MapWalkUnion(o, n, nodes, intersection + addition, deletion);
    DiffProps.WalkNodesDistinct(Map(o), Map(n), nodes);
    DiffProps.DistinctPermutation(rets, Walk(Map(o), Map(n), nodes));
  }

  /** The first loop of `handleMap`: recurse into each given key, all of
      which both maps have. */
  method HandleSharedKeys(o: map<string, Tree>, n: map<string, Tree>, nodes: seq<Node>,
                          keys: set<string>) returns (rets: seq<Entry>)
    requires keys <= o.Keys * n.Keys
    ensures multiset(rets) == multiset(MapWalk(o, n, nodes, keys))
    decreases Map(o), 0
  {
    rets := [];
    var todo := keys;
    while todo != {}
      invariant todo <= keys
      invariant multiset(rets) + multiset(MapWalk(o, n, nodes, todo))
             == multiset(MapWalk(o, n, nodes, keys))
      decreases |todo|
    {
      var k :| k in todo;
      var sub := Handle(o[k], n[k], nodes + [NewKeyNode(k)]);
      MapWalkSplit(o, n, nodes, todo, k);
      rets := rets + sub;
      todo := todo - {k};
    }
  }

  /** The second loop of `handleMap`: report each given key, all of which
      only `n` has, as added. */
  method ReportAddedKeys(o: map<string, Tree>, n: map<string, Tree>, nodes: seq<Node>,
                         keys: set<string>, acc: seq<Entry>) returns (rets: seq<Entry>)
    requires keys <= n.Keys - o.Keys
    ensures multiset(rets) == multiset(acc) + multiset(MapWalk(o, n, nodes, keys))
  {
    rets := acc;
    var todo := keys;
    while todo != {}
      invariant todo <= keys
      invariant multiset(rets) + multiset(MapWalk(o, n, nodes, todo))
             == multiset(acc) + multiset(MapWalk(o, n, nodes, keys))
      decreases |todo|
    {
      var k :| k in todo;
      var ret := Entry(Add, nodes + [NewKeyNode(k)], NilTree, n[k]);
      MapWalkSplit(o, n, nodes, todo, k);
      rets := rets + [ret];
      todo := todo - {k};
    }
  }

  /** The third loop of `handleMap`: report each given key, all of which
      only `o` has, as removed. */
  method ReportRemovedKeys(o: map<string, Tree>, n: map<string, Tree>, nodes: seq<Node>,
                           keys: set<string>, acc: seq<Entry>) returns (rets: seq<Entry>)
    requires keys <= o.Keys - n.Keys
    ensures multiset(rets) == multiset(acc) + multiset(MapWalk(o, n, nodes, keys))
  {
    rets := acc;
    var todo := keys;
    while todo != {}
      invariant todo <= keys
      invariant multiset(rets) + multiset(MapWalk(o, n, nodes, todo))
             == multiset(acc) + multiset(MapWalk(o, n, nodes, keys))
      decreases |todo|
    {
      var k :| k in todo;
      var ret := Entry(Remove, nodes + [NewKeyNode(k)], o[k], NilTree);
      MapWalkSplit(o, n, nodes, todo, k);
      rets := rets + [ret];
      todo := todo - {k};
    }
  }

  /** Compares two lists position by position up to the shorter length, then
      reports the longer list's tail as added or removed. */
  method HandleList(o: seq<Tree>, n: seq<Tree>, nodes: seq<Node>) returns (rets: seq<Entry>)
    ensures multiset(rets) == multiset(Walk(List(o), List(n), nodes))
    ensures DiffProps.DistinctPaths(rets)
    decreases List(o), 1
  {
    var oldLen, newLen := |o|, |n|;
    var minLen := oldLen;
    if newLen < oldLen {
      minLen := newLen;
    }
    rets := HandleSharedIndices(o, n, nodes, minLen);
    rets := ReportAddedIndices(o, n, nodes, minLen, rets);
    rets := ReportRemovedIndices(o, n, nodes, minLen, rets);
    DiffProps.WalkNodesDistinct(List(o), List(n), nodes);
    DiffProps.DistinctPermutation(rets, Walk(List(o), List(n), nodes));
  }

  /** The first loop of `handleList`: recurse into every position both lists
      have. */
  method HandleSharedIndices(o: seq<Tree>, n: seq<Tree>, nodes: seq<Node>, minLen: nat)
    returns (rets: seq<Entry>)
    requires minLen <= |o| && minLen <= |n|
    ensures multiset(rets) == multiset(ListWalk(o, n, nodes, minLen))
    decreases List(o), 0
  {
    rets := [];
    var idx := 0;
    while idx < minLen
      invariant idx <= minLen
      invariant multiset(rets) == multiset(ListWalk(o, n, nodes, idx))
    {
      var sub := Handle(o[idx], n[idx], nodes + [NewIdxNode(idx)]);
      ListWalkStep(o, n, nodes, idx);
      rets := rets + sub;
      idx := idx + 1;
    }
  }

  /** The second loop of `handleList`: report every position past the end of
      `o` as added. */
  method ReportAddedIndices(o: seq<Tree>, n: seq<Tree>, nodes: seq<Node>, minLen: nat,
                            acc: seq<Entry>) returns (rets: seq<Entry>)
    requires minLen <= |o| && minLen <= |n| && (minLen == |o| || minLen == |n|)
    requires multiset(acc) == multiset(ListWalk(o, n, nodes, minLen))
    ensures multiset(rets) == multiset(ListWalk(o, n, nodes, |n|))
  {
    rets := acc;
    var idx := minLen;
    while idx < |n|
      invariant minLen <= idx <= |n|
      invariant multiset(rets) == multiset(ListWalk(o, n, nodes, idx))
    {
      var ret := Entry(Add, nodes + [NewIdxNode(idx)], NilTree, n[idx]);
      ListWalkStep(o, n, nodes, idx);
      rets := rets + [ret];
      idx := idx + 1;
    }
  }

  /** The third loop of `handleList`: report every position past the end of
      `n` as removed. */
  method ReportRemovedIndices(o: seq<Tree>, n: seq<Tree>, nodes: seq<Node>, minLen: nat,
                              acc: seq<Entry>) returns (rets: seq<Entry>)
    requires minLen <= |o| && minLen <= |n| && (minLen == |o| || minLen == |n|)
    requires multiset(acc) == multiset(ListWalk(o, n, nodes, |n|))
    ensures multiset(rets) == multiset(ListWalk(o, n, nodes, MaxLen(o, n)))
  {
    rets := acc;
    var idx := minLen;
    while idx < |o|
      invariant minLen <= idx
      invariant minLen == |o| ==> idx == minLen && rets == acc
      invariant minLen != |o| ==> idx <= |o| && multiset(rets) == multiset(ListWalk(o, n, nodes, idx))
    {
      var ret := Entry(Remove, nodes + [NewIdxNode(idx)], o[idx], NilTree);
      ListWalkStep(o, n, nodes, idx);
      rets := rets + [ret];
      idx := idx + 1;
    }
  }

  /** Descends when both sides are generic maps or both are generic lists;
      otherwise reports one change when the values differ. */
  method Handle(o: Tree, n: Tree, nodes: seq<Node>) returns (rets: seq<Entry>)
    ensures multiset(rets) == multiset(Walk(o, n, nodes))
    ensures DiffProps.DistinctPaths(rets)
    decreases o, 2
  {
    if o.Map? && n.Map? {
      rets := HandleMap(o.entries, n.entries, nodes);
      return;
    }
    if o.List? && n.List? {
      rets := HandleList(o.items, n.items, nodes);
      return;
    }
    rets := [];
    if o != n {
      var ret := Entry(Change, nodes, o, n);
      rets := rets + [ret];
    }
  }
}

=== FILE: getter.dfy ===
/** Looking up a nested value by path (`GetItems`, `getItems`, `Get` and the
    typed getters). A path is a '.'-separated string or a list of segments;
    every segment but the last must name a generic map. */
module Getter {
  import opened Strings
  import opened Wrappers
  import opened Values
  import opened Paths
  import opened Positions

  /** The dynamically typed `paths` argument: a string, a `[]string`, or a
      value of any other Go type. */
  datatype PathArg = StrPath(s: string) | SegPath(segs: seq<string>) | OtherPath

  /** The errors of the getter and the setter: `ErrInvalidPathType`,
      "paths is empty list", "key %s not exist", "key %s, val not
      map[string]any type" and the setter's "key %s not exists or obj[key]
      not map[string]any type". */
  datatype PathError =
    | InvalidPathType
    | EmptyPaths
    | KeyNotExist(key: string)
    | ValNotMap(key: string)
    | KeyNotExistOrNotMap(key: string)

  /** The segments a path argument stands for: a string is split at every
      '.', a list is taken as it is, anything else is rejected. */
  function Segments(paths: PathArg): (r: Result<seq<string>, PathError>)
    ensures paths.OtherPath? <==> r == Err(InvalidPathType)
    ensures r.Err? ==> r == Err(InvalidPathType)
    ensures paths.StrPath? ==> r.Ok? && |r.value| > 0 && Join(r.value, '.') == paths.s
    ensures paths.StrPath? ==> forall i :: 0 <= i < |r.value| ==> '.' !in r.value[i]
    ensures paths.SegPath? ==> r == Ok(paths.segs)
  {
    match paths
    case StrPath(s) => Ok(Split(s, '.'))
    case SegPath(segs) => Ok(segs)
    case OtherPath => Err(InvalidPathType)
  }

  /** The generic map reached from `obj` by following `segs`, each of which
      must name a generic map one level further down. */
  function Descend(obj: map<string, Tree>, segs: seq<string>): Option<map<string, Tree>>
    decreases |segs|
  {
    if segs == [] then Some(obj)
    else if segs[0] in obj && obj[segs[0]].Map? then Descend(obj[segs[0]].entries, segs[1..])
    else None
  }

  /** `getItems`: the value at a non-empty list of segments, failing at the
      first segment that is absent or, before the last, not a generic map. */
  function LookUp(obj: map<string, Tree>, segs: seq<string>): (r: Result<Tree, PathError>)
    ensures r.Err? ==> r.error != InvalidPathType && !r.error.KeyNotExistOrNotMap?
    ensures r == Err(EmptyPaths) <==> |segs| == 0
    ensures r.Ok? <==> |segs| > 0 && At(Map(obj), KeyPath(segs)).Some?
    ensures r.Ok? ==> At(Map(obj), KeyPath(segs)) == Some(r.value)
    decreases |segs|
  {
    if |segs| == 0 then Err(EmptyPaths)
    else
      var k := segs[0];
      assert KeyPath(segs) == [KeyNode(k)] + KeyPath(segs[1..]);
      AtCons(Map(obj), KeyNode(k), KeyPath(segs[1..]));
      AtKeyStep(obj, k);
      if k !in obj then Err(KeyNotExist(k))
      else if |segs| == 1 then Ok(obj[k])
      else if obj[k].Map? then LookUp(obj[k].entries, segs[1..])
      else Err(ValNotMap(k))
  }

  /** `GetItems`: the value at a path argument. */
  function GetItems(obj: map<string, Tree>, paths: PathArg): (r: Result<Tree, PathError>)
    ensures paths.OtherPath? <==> r == Err(InvalidPathType)
    ensures paths.StrPath? ==> r != Err(EmptyPaths)
    ensures r.Ok? <==> ValueAt(obj, paths).Some?
    ensures r.Ok? ==> ValueAt(obj, paths) == Some(r.value)
  {
    match Segments(paths)
    case Err(e) => Err(e)
    case Ok(segs) => LookUp(obj, segs)
  }

  /** The reference meaning of a path argument: the subtree at the key steps
      it stands for, when there are any and the subtree exists. */
  function ValueAt(obj: map<string, Tree>, paths: PathArg): Option<Tree> {
    match Segments(paths)
    case Err(_) => None
    case Ok(segs) => if |segs| == 0 then None else At(Map(obj), KeyPath(segs))
  }

  /** `Get`: the value at the path, or `defVal` when there is none. */
  function Get(obj: map<string, Tree>, paths: PathArg, defVal: Tree): (r: Tree)
    ensures r == match ValueAt(obj, paths) case Some(v) => v case None => defVal
  {
    match GetItems(obj, paths)
    case Ok(v) => v
    case Err(_) => defVal
  }

  /** `GetBool`: whether the value at the path is the boolean true. */
  function GetBool(obj: map<string, Tree>, paths: PathArg): (r: bool)
    ensures r <==> ValueAt(obj, paths) == Some(Leaf(Bool(true)))
  {
    match Get(obj, paths, Leaf(Bool(false)))
    case Leaf(Bool(b)) => b
    case _ => false
  }

  /** `GetInt64`: the value at the path when it is an `int64`, otherwise 0.
      The source passes the default as an untyped constant, which becomes a
      Go `int`; that default fails the `int64` assertion and 0 results all
      the same. */
  function GetInt64(obj: map<string, Tree>, paths: PathArg): (r: int64)
    ensures r == match ValueAt(obj, paths) case Some(Leaf(Int64(x))) => x case _ => 0
  {
    match Get(obj, paths, Leaf(Int(0)))
    case Leaf(Int64(x)) => x
    case _ => 0
  }

  /** `GetFloat64`: the value at the path when it is a `float64`, otherwise
      positive zero (as for `GetInt64`, the default is a Go `int`). */
  function GetFloat64(obj: map<string, Tree>, paths: PathArg): (r: bv64)
    ensures r == match ValueAt(obj, paths) case Some(Leaf(Float64(x))) => x case _ => 0
  {
    match Get(obj, paths, Leaf(Int(0)))
    case Leaf(Float64(x)) => x
    case _ => 0
  }

  /** `GetStr`: the value at the path when it is a string, otherwise "". */
  function GetStr(obj: map<string, Tree>, paths: PathArg): (r: string)
    ensures r == match ValueAt(obj, paths) case Some(Leaf(Str(x))) => x case _ => ""
  {
    match Get(obj, paths, Leaf(Str("")))
    case Leaf(Str(x)) => x
    case _ => ""
  }

  /** `GetList`: the value at the path when it is a generic list, otherwise
      no elements. */
  function GetList(obj: map<string, Tree>, paths: PathArg): (r: seq<Tree>)
    ensures r == match ValueAt(obj, paths) case Some(List(xs)) => xs case _ => []
  {
    match Get(obj, paths, NilTree)
    case List(xs) => xs
    case _ => []
  }

  /** `GetMap`: the value at the path when it is a generic map, otherwise no
      entries. */
  function GetMap(obj: map<string, Tree>, paths: PathArg): (r: map<string, Tree>)
    ensures r == match ValueAt(obj, paths) case Some(Map(m)) => m case _ => map[]
  {
    match Get(obj, paths, NilTree)
    case Map(m) => m
    case _ => map[]
  }

  /** Where a lookup stops: once `segs[..i]` has led through generic maps to
      `m`, a missing `segs[i]` is reported as not existing, a present but
      non-map `segs[i]` before the last segment as not a map, and a present
      last segment is the result. */
  lemma {:induction false} LookUpAtLevel(obj: map<string, Tree>, segs: seq<string>, i: nat)
    requires i < |segs| && Descend(obj, segs[..i]).Some?
    ensures var m := Descend(obj, segs[..i]).value;
            && (segs[i] !in m ==> LookUp(obj, segs) == Err(KeyNotExist(segs[i])))
            && (segs[i] in m && i + 1 < |segs| && !m[segs[i]].Map? ==>
                  LookUp(obj, segs) == Err(ValNotMap(segs[i])))
            && (segs[i] in m && i + 1 == |segs| ==> LookUp(obj, segs) == Ok(m[segs[i]]))
    decreases i
  {
    if i > 0 {
      var k := segs[0];
      assert segs[..i] == [k] + segs[1..][..i - 1];
      assert segs[..i][1..] == segs[1..][..i - 1];
      LookUpAtLevel(obj[k].entries, segs[1..], i - 1);
    }
  }

  /** A list of segments without dots, joined with dots, is the same path as
      the list itself. */
  lemma JoinedPath(obj: map<string, Tree>, segs: seq<string>)
    requires |segs| > 0 && forall i :: 0 <= i < |segs| ==> '.' !in segs[i]
    ensures GetItems(obj, StrPath(Join(segs, '.'))) == GetItems(obj, SegPath(segs))
  {
    SplitJoin(segs, '.');
  }
}

=== FILE: paths.dfy ===
/** Path nodes and the dotted/bracketed rendering of a node path
    (`Node`, `NewIdxNode`, `NewKeyNode` and the path half of `NewDiffRet`). */
module Paths {
  import opened Strings

  /** One addressing step. As in the source, an index step stores the
      decimal text of the index rather than the number. */
  datatype Node = KeyNode(key: string) | IndexNode(index: string)

  /** An index step for list position `i`. */
  function NewIdxNode(i: nat): (n: Node)
    ensures n.IndexNode? && IsCanonicalDecimal(n.index)
    ensures ParseDecimal(n.index) == i
  {
    IndexNode(Itoa(i))
  }

  /** A key step for map key `k`. */
  function NewKeyNode(k: string): Node {
    KeyNode(k)
  }

  /** Index steps for distinct positions are distinct. */
  lemma NewIdxNodeInjective(i: nat, j: nat)
    requires NewIdxNode(i) == NewIdxNode(j)
    ensures i == j
  {
    ItoaInjective(i, j);
  }

  /** The text one step contributes: `.key`, or `.(key)` when the key itself
      contains a dot, or `[index]`. */
  function NodeText(n: Node): string {
    match n
    case KeyNode(k) => if '.' in k then ".(" + k + ")" else "." + k
    case IndexNode(i) => "[" + i + "]"
  }

  /** The concatenated text of a node path, before trimming. */
  function RawPath(nodes: seq<Node>): string {
    if |nodes| == 0 then "" else NodeText(nodes[0]) + RawPath(nodes[1..])
  }

  /** Rendering is compositional: a longer path renders as its parts. */
  lemma {:induction false} RawPathAppend(a: seq<Node>, b: seq<Node>)
    ensures RawPath(a + b) == RawPath(a) + RawPath(b)
  {
    if |a| > 0 {
      assert (a + b)[1..] == a[1..] + b;
      RawPathAppend(a[1..], b);
    } else {
      assert a + b == b;
    }
  }

  /** The rendered path of a record: the raw text with every leading and
      trailing dot removed. */
  function Dotted(nodes: seq<Node>): (r: string)
    ensures r == [] || (r[0] != '.' && r[|r| - 1] != '.')
  {
    Trim(RawPath(nodes), '.')
  }

  /** The rendered path is the raw text with a run of dots cut from each
      end and nothing else: an infix of the raw text, preceded and followed
      only by dots, that itself neither starts nor ends with a dot. */
  lemma DottedInfix(nodes: seq<Node>) returns (i: nat, raw: string, r: string)
    ensures raw == RawPath(nodes) && r == Dotted(nodes)
    ensures i + |r| <= |raw| && r == raw[i..i + |r|]
    ensures AllChar(raw[..i], '.') && AllChar(raw[i + |r|..], '.')
    ensures r == [] || (r[0] != '.' && r[|r| - 1] != '.')
  {
    raw := RawPath(nodes);
    i, r := TrimInfix(raw, '.');
  }

  /** The rendered path is the raw text trimmed of dots at both ends. */
  lemma DottedTrimmed(nodes: seq<Node>)
    ensures TrimmedOf(Dotted(nodes), RawPath(nodes), '.')
  {
    var i, raw, r := DottedInfix(nodes);
    assert CutAt(r, raw, '.', i);
  }

  /** The parentheses make a single step's text unambiguous: distinct steps
      never render the same. */
  lemma NodeTextInjective(a: Node, b: Node)
    requires NodeText(a) == NodeText(b)
    ensures a == b
  {
    var t := NodeText(a);
    match a
    case IndexNode(x) =>
      assert t[0] == '[';
      assert b.IndexNode?;
      assert x == t[1..|t| - 1] == b.index;
    case KeyNode(x) =>
      assert t[0] == '.';
      assert b.KeyNode?;
      var y := b.key;
      if '.' in x && '.' in y {
        assert x == t[2..|t| - 1] == y;
      } else if '.' !in x && '.' !in y {
        assert x == t[1..] == y;
      } else if '.' in x {
        KeyTextMismatch(x, y);
      } else {
        KeyTextMismatch(y, x);
      }
  }

  /** A dotted key and an undotted key never render the same. */
  lemma KeyTextMismatch(x: string, y: string)
    requires '.' in x && '.' !in y
    ensures ".(" + x + ")" != "." + y
  {
    var i :| 0 <= i < |x| && x[i] == '.';
    assert (".(" + x + ")")[i + 2] == '.';
    if |y| == |x| + 2 {
      assert ("." + y)[i + 2] == y[i + 1];
      assert y[i + 1] in y;
    }
  }

  lemma RawPathCons(n: Node, rest: seq<Node>, text: string)
    requires RawPath(rest) == text
    ensures RawPath([n] + rest) == NodeText(n) + text
  {
    assert ([n] + rest)[1..] == rest;
  }

  lemma ExampleRawPath()
    ensures RawPath([KeyNode("c2"), IndexNode("1"), KeyNode("e5.f1")]) == ".c2[1].(e5.f1)"
  {
    assert "e5.f1"[2] == '.';
    assert '.' !in "c2";
    RawPathCons(KeyNode("e5.f1"), [], "");
    assert [KeyNode("e5.f1")] + [] == [KeyNode("e5.f1")];
    RawPathCons(IndexNode("1"), [KeyNode("e5.f1")], ".(e5.f1)");
    RawPathCons(KeyNode("c2"), [IndexNode("1"), KeyNode("e5.f1")], "[1].(e5.f1)");
  }

  /** A path from the differ's own test: the dotted key is wrapped in
      parentheses, the index in brackets, and the leading dot is trimmed. */
  lemma DottedExample()
    ensures Dotted([NewKeyNode("c2"), NewIdxNode(1), NewKeyNode("e5.f1")]) == "c2[1].(e5.f1)"
  {
    assert Itoa(1) == "1";
    ExampleRawPath();
    var raw := ".c2[1].(e5.f1)";
    assert TrimLeft(raw[1..], '.') == raw[1..];
    assert TrimLeft(raw, '.') == raw[1..];
    assert TrimRight(raw[1..], '.') == raw[1..];
  }

  /** Whole paths are NOT rendered unambiguously: the key `"a.b"` and the two
      keys `"(a"`, `"b)"` render alike, as do the key `"x[0]"` and the key
      `"x"` followed by index 0. */
  lemma DottedCollisions()
    ensures Dotted([NewKeyNode("(a"), NewKeyNode("b)")]) == Dotted([NewKeyNode("a.b")])
    ensures Dotted([NewKeyNode("x[0]")]) == Dotted([NewKeyNode("x"), NewIdxNode(0)])
    ensures [NewKeyNode("(a"), NewKeyNode("b)")] != [NewKeyNode("a.b")]
    ensures [NewKeyNode("x[0]")] != [NewKeyNode("x"), NewIdxNode(0)]
  {
    assert "a.b"[1] == '.';
    assert RawPath([NewKeyNode("(a"), NewKeyNode("b)")]) == ".(a.b)";
    assert RawPath([NewKeyNode("a.b")]) == ".(a.b)";
    assert TrimLeft("(a.b)", '.') == "(a.b)";
    assert TrimLeft(".(a.b)", '.') == "(a.b)";
    assert TrimRight("(a.b)", '.') == "(a.b)";
    assert Itoa(0) == "0";
    assert RawPath([NewKeyNode("x[0]")]) == ".x[0]";
    assert RawPath([NewKeyNode("x"), NewIdxNode(0)]) == ".x[0]";
  }
}

=== FILE: positions.dfy ===
/** Positions inside a tree, addressed by node paths: the common ground of
    the differ's records and the getter's and setter's segment paths. */
module Positions {
  import opened Strings
  import opened Wrappers
  import opened Values
  import opened Paths

  /** The subtree at a node path relative to `t`, if there is one: a key step
      enters a generic map that has the key, an index step enters a generic
      list that has the position. */
  function At(t: Tree, rel: seq<Node>): Option<Tree>
    decreases |rel|
  {
    if rel == [] then Some(t)
    else match rel[0]
      case KeyNode(k) =>
        if t.Map? && k in t.entries then At(t.entries[k], rel[1..]) else None
      case IndexNode(s) =>
        if t.List? && IsDecimal(s) && ParseDecimal(s) < |t.items|
        then At(t.items[ParseDecimal(s)], rel[1..]) else None
  }

  lemma AtCons(t: Tree, step: Node, rest: seq<Node>)
    ensures At(t, [step] + rest) == (match At(t, [step])
                                     case Some(c) => At(c, rest)
                                     case None => None)
  {
    assert ([step] + rest)[1..] == rest;
    assert [step][1..] == [];
  }

  lemma AtKeyStep(m: map<string, Tree>, k: string)
    ensures At(Map(m), [KeyNode(k)]) == if k in m then Some(m[k]) else None
  {
    assert [KeyNode(k)][1..] == [];
  }

  lemma AtIndexStep(s: seq<Tree>, i: nat)
    ensures At(List(s), [NewIdxNode(i)]) == if i < |s| then Some(s[i]) else None
  {
    assert [NewIdxNode(i)][1..] == [];
  }

  /** The key steps for a list of map keys. */
  function KeyPath(segs: seq<string>): (nodes: seq<Node>)
    ensures |nodes| == |segs|
    ensures forall i :: 0 <= i < |segs| ==> nodes[i] == KeyNode(segs[i])
  {
    if segs == [] then [] else [NewKeyNode(segs[0])] + KeyPath(segs[1..])
  }
}

=== FILE: props.dfy ===
/** What the differ's records mean: each describes a real difference at its
    position, equal trees and only equal trees yield none, swapping the trees
    swaps the records, and the map and list levels classify keys and indices
    exactly as `handleMap` and `handleList` promise. */
module DiffProps {
  import opened Strings
  import opened Wrappers
  import opened Values
  import opened Paths
  import opened Records
  import opened DiffWalk
  import opened Positions

  /** What it means for an entry collected at `nodes` to be a faithful
      record: its path extends `nodes`, additions and removals lie strictly
      below, and relative to `nodes` an addition names a position that only
      the new tree has, with the whole new subtree and a nil old value; a
      removal the reverse; a change a position both trees have, with both
      whole values, which differ and are not both generic maps or both
      generic lists. */
  ghost predicate Faithful(o: Tree, n: Tree, nodes: seq<Node>, e: Entry) {
    && nodes <= e.nodes
    && (e.action != Change ==> |e.nodes| > |nodes|)
    && var rel := e.nodes[|nodes|..];
       match e.action
       case Add =>
         e.oldVal == NilTree && At(o, rel) == None && At(n, rel) == Some(e.newVal)
       case Remove =>
         e.newVal == NilTree && At(o, rel) == Some(e.oldVal) && At(n, rel) == None
       case Change =>
         && At(o, rel) == Some(e.oldVal) && At(n, rel) == Some(e.newVal)
         && e.oldVal != e.newVal && !Descends(e.oldVal, e.newVal)
  }

  /** A faithful entry one step below stays faithful one step up. */
  lemma FaithfulLift(o: Tree, n: Tree, nodes: seq<Node>, step: Node, oc: Tree, nc: Tree, e: Entry)
    requires At(o, [step]) == Some(oc) && At(n, [step]) == Some(nc)
    requires Faithful(oc, nc, nodes + [step], e)
    ensures Faithful(o, n, nodes, e)
  {
    var rel := e.nodes[|nodes|..];
    assert rel == [step] + e.nodes[|nodes| + 1..];
    AtCons(o, step, e.nodes[|nodes| + 1..]);
    AtCons(n, step, e.nodes[|nodes| + 1..]);
  }

  // ---------------------------------------------------------------------
  // Membership in the per-level walks
  // ---------------------------------------------------------------------

  /** A map level collects exactly the records of its keys. */
  lemma MapWalkMember(o: map<string, Tree>, n: map<string, Tree>,
                      nodes: seq<Node>, keys: set<string>, e: Entry)
    requires keys <= o.Keys + n.Keys
    ensures e in MapWalk(o, n, nodes, keys) <==> exists k :: k in keys && e in KeyWalk(o, n, nodes, k)
  {
    GatherMember(KeyWalks(o, n, nodes), keys, e);
  }

  /** A list level collects exactly the records of its positions. */
  lemma ListWalkMember(o: seq<Tree>, n: seq<Tree>, nodes: seq<Node>, i: nat, e: Entry)
    requires i <= MaxLen(o, n)
    ensures e in ListWalk(o, n, nodes, i) <==> exists j: nat :: j < i && e in IndexWalk(o, n, nodes, j)
  {
    var f := IndexWalks(o, n, nodes);
    UptoMember(f, i, e);
    if e in ListWalk(o, n, nodes, i) {
      var j: nat :| j < i && e in f(j);
      assert f(j) == IndexWalk(o, n, nodes, j);
    }
    if exists j: nat :: j < i && e in IndexWalk(o, n, nodes, j) {
      var j: nat :| j < i && e in IndexWalk(o, n, nodes, j);
      assert f(j) == IndexWalk(o, n, nodes, j);
    }
  }

  /** A position's records are among the records of every list level that
      reaches past it. */
  lemma ListWalkContains(o: seq<Tree>, n: seq<Tree>, nodes: seq<Node>, i: nat, j: nat, e: Entry)
    requires j < i <= MaxLen(o, n) && e in IndexWalk(o, n, nodes, j)
    ensures e in ListWalk(o, n, nodes, i)
  {
    ListWalkMember(o, n, nodes, i, e);
  }

  // ---------------------------------------------------------------------
  // Every record is faithful
  // ---------------------------------------------------------------------

  /** Every collected record describes a real difference between the two
      trees at its position, and carries the values the source promises. */
  lemma {:induction false} WalkFaithful(o: Tree, n: Tree, nodes: seq<Node>, e: Entry)
    requires e in Walk(o, n, nodes)
    ensures Faithful(o, n, nodes, e)
    decreases o
  {
    if o.Map? && n.Map? {
      var om, nm := o.entries, n.entries;
      MapWalkMember(om, nm, nodes, om.Keys + nm.Keys, e);
      var k :| k in om.Keys + nm.Keys && e in KeyWalk(om, nm, nodes, k);
      var step := NewKeyNode(k);
      AtKeyStep(om, k);
      AtKeyStep(nm, k);
      if k in om && k in nm {
        WalkFaithful(om[k], nm[k], nodes + [step], e);
        FaithfulLift(o, n, nodes, step, om[k], nm[k], e);
      } else {
        assert e.nodes[|nodes|..] == [step];
      }
    } else if o.List? && n.List? {
      var os, ns := o.items, n.items;
      ListWalkMember(os, ns, nodes, MaxLen(os, ns), e);
      var i :| 0 <= i < MaxLen(os, ns) && e in IndexWalk(os, ns, nodes, i);
      var step := NewIdxNode(i);
      AtIndexStep(os, i);
      AtIndexStep(ns, i);
      if i < |os| && i < |ns| {
        WalkFaithful(os[i], ns[i], nodes + [step], e);
        FaithfulLift(o, n, nodes, step, os[i], ns[i], e);
      } else {
        assert e.nodes[|nodes|..] == [step];
      }
    } else {
      assert e.nodes[|nodes|..] == [];
    }
  }

  // ---------------------------------------------------------------------
  // Equal trees, and only equal trees, yield no records
  // ---------------------------------------------------------------------

  /** The walk reports nothing exactly when the two trees are equal; in
      particular diffing any tree against itself reports nothing. */
  lemma {:induction false} WalkEmptyIff(o: Tree, n: Tree, nodes: seq<Node>)
    ensures Walk(o, n, nodes) == [] <==> o == n
    decreases o
  {
    if o.Map? && n.Map? {
      var om, nm := o.entries, n.entries;
      var f := KeyWalks(om, nm, nodes);
      GatherEmpty(f, om.Keys + nm.Keys);
      forall k | k in om.Keys + nm.Keys
        ensures f(k) == [] <==> k in om && k in nm && om[k] == nm[k]
      {
        assert f(k) == KeyWalk(om, nm, nodes, k);
        if k in om && k in nm {
          WalkEmptyIff(om[k], nm[k], nodes + [NewKeyNode(k)]);
        }
      }
      MapsEqual(om, nm);
    } else if o.List? && n.List? {
      var os, ns := o.items, n.items;
      var f := IndexWalks(os, ns, nodes);
      UptoEmpty(f, MaxLen(os, ns));
      forall j: nat | j < MaxLen(os, ns)
        ensures f(j) == [] <==> Agree(os, ns, j)
      {
        assert f(j) == IndexWalk(os, ns, nodes, j);
        if j < |os| && j < |ns| {
          WalkEmptyIff(os[j], ns[j], nodes + [NewIdxNode(j)]);
        }
      }
      SeqsEqual(os, ns);
    }
  }

  /** Two maps are equal exactly when every key of either is a key of both
      with the same value. */
  lemma MapsEqual(a: map<string, Tree>, b: map<string, Tree>)
    ensures (forall k :: k in a.Keys + b.Keys ==> k in a && k in b && a[k] == b[k]) <==> a == b
  {
    if forall k :: k in a.Keys + b.Keys ==> k in a && k in b && a[k] == b[k] {
      assert a.Keys == b.Keys;
    }
  }

  /** Two lists are equal exactly when every position below the longer
      length is a position of both with the same value. */
  lemma SeqsEqual(a: seq<Tree>, b: seq<Tree>)
    ensures (forall j: nat :: j < MaxLen(a, b) ==> Agree(a, b, j)) <==> a == b
  {
    if (forall j: nat :: j < MaxLen(a, b) ==> Agree(a, b, j)) && MaxLen(a, b) > 0 {
      var last: nat := MaxLen(a, b) - 1;
      assert Agree(a, b, last);
      forall j | 0 <= j < |a|
        ensures a[j] == b[j]
      {
        assert Agree(a, b, j);
      }
    }
  }

  /** Both lists have position `j`, with the same value. */
  predicate Agree(a: seq<Tree>, b: seq<Tree>, j: nat) {
    j < |a| && j < |b| && a[j] == b[j]
  }

  // ---------------------------------------------------------------------
  // Swapping the trees swaps the records
  // ---------------------------------------------------------------------

  /** The record the reverse comparison makes: an addition becomes a removal
      of the same value and vice versa, a change swaps its values. */
  function Flip(e: Entry): Entry {
    var a := match e.action
      case Add => Remove
      case Remove => Add
      case Change => Change;
    Entry(a, e.nodes, e.newVal, e.oldVal)
  }

  function FlipAll(es: seq<Entry>): seq<Entry> {
    seq(|es|, i requires 0 <= i < |es| => Flip(es[i]))
  }

  lemma FlipAllAppend(a: seq<Entry>, b: seq<Entry>)
    ensures FlipAll(a + b) == FlipAll(a) + FlipAll(b)
  {
  }

  /** Comparing new against old yields, in the same order, the flipped
      records of comparing old against new. */
  lemma {:induction false} WalkSwap(o: Tree, n: Tree, nodes: seq<Node>)
    ensures Walk(n, o, nodes) == FlipAll(Walk(o, n, nodes))
    decreases o
  {
    if o.Map? && n.Map? {
      var om, nm := o.entries, n.entries;
      assert nm.Keys + om.Keys == om.Keys + nm.Keys;
      forall k | k in om.Keys + nm.Keys
        ensures KeyWalks(nm, om, nodes)(k) == FlipAll(KeyWalks(om, nm, nodes)(k))
      {
        if k in om && k in nm {
          WalkSwap(om[k], nm[k], nodes + [NewKeyNode(k)]);
        }
      }
      GatherFlip(KeyWalks(om, nm, nodes), KeyWalks(nm, om, nodes), om.Keys + nm.Keys);
    } else if o.List? && n.List? {
      var os, ns := o.items, n.items;
      assert MaxLen(ns, os) == MaxLen(os, ns);
      forall j: nat | j < MaxLen(os, ns)
        ensures IndexWalks(ns, os, nodes)(j) == FlipAll(IndexWalks(os, ns, nodes)(j))
      {
        if j < |os| && j < |ns| {
          WalkSwap(os[j], ns[j], nodes + [NewIdxNode(j)]);
        }
      }
      UptoFlip(IndexWalks(os, ns, nodes), IndexWalks(ns, os, nodes), MaxLen(os, ns));
    }
  }

  lemma {:induction false} GatherFlip(f: string --> seq<Entry>, g: string --> seq<Entry>,
                                      keys: set<string>)
    requires forall k :: k in keys ==> f.requires(k) && g.requires(k)
    requires forall k :: k in keys ==> g(k) == FlipAll(f(k))
    ensures Gather(g, keys) == FlipAll(Gather(f, keys))
    decreases |keys|
  {
    if keys != {} {
      var j := PickKey(keys);
      GatherFlip(f, g, keys - {j});
      FlipAllAppend(f(j), Gather(f, keys - {j}));
    }
  }

  lemma {:induction false} UptoFlip(f: nat --> seq<Entry>, g: nat --> seq<Entry>, i: nat)
    requires forall j: nat :: j < i ==> f.requires(j) && g.requires(j)
    requires forall j: nat :: j < i ==> g(j) == FlipAll(f(j))
    ensures Upto(g, i) == FlipAll(Upto(f, i))
  {
    if i > 0 {
      UptoFlip(f, g, i - 1);
      FlipAllAppend(Upto(f, i - 1), f(i - 1));
    }
  }

  // ---------------------------------------------------------------------
  // The record at a position's own path
  // ---------------------------------------------------------------------

  /** A position reports a record at its own path exactly when the two
      values differ and are not both generic maps nor both generic lists;
      that record is a change carrying both whole values. */
  lemma OwnPath(o: Tree, n: Tree, nodes: seq<Node>)
    ensures (exists e :: e in Walk(o, n, nodes) && e.nodes == nodes) <==> !Descends(o, n) && o != n
    ensures forall e :: e in Walk(o, n, nodes) && e.nodes == nodes ==> e == Entry(Change, nodes, o, n)
  {
    forall e | e in Walk(o, n, nodes) && e.nodes == nodes
      ensures e == Entry(Change, nodes, o, n) && !Descends(o, n) && o != n
    {
      WalkFaithful(o, n, nodes, e);
      assert e.nodes[|nodes|..] == [];
    }
    if !Descends(o, n) && o != n {
      assert Entry(Change, nodes, o, n) in Walk(o, n, nodes);
    }
  }

  // ---------------------------------------------------------------------
  // The map level
  // ---------------------------------------------------------------------

  /** At a map level an addition is reported at a key exactly when only the
      new map has it, and a removal exactly when only the old map has it;
      each carries the key's whole value. */
  lemma MapLevel(o: map<string, Tree>, n: map<string, Tree>, nodes: seq<Node>, k: string)
    ensures (exists e :: e in Walk(Map(o), Map(n), nodes) && e.action == Add
                         && e.nodes == nodes + [NewKeyNode(k)]) <==> k in n && k !in o
    ensures (exists e :: e in Walk(Map(o), Map(n), nodes) && e.action == Remove
                         && e.nodes == nodes + [NewKeyNode(k)]) <==> k in o && k !in n
    ensures k in n && k !in o ==>
              Entry(Add, nodes + [NewKeyNode(k)], NilTree, n[k]) in Walk(Map(o), Map(n), nodes)
    ensures k in o && k !in n ==>
              Entry(Remove, nodes + [NewKeyNode(k)], o[k], NilTree) in Walk(Map(o), Map(n), nodes)
  {
    var w := Walk(Map(o), Map(n), nodes);
    var path := nodes + [NewKeyNode(k)];
    forall e | e in w && e.nodes == path && e.action != Change
      ensures e.action == Add ==> k in n && k !in o
      ensures e.action == Remove ==> k in o && k !in n
    {
      WalkFaithful(Map(o), Map(n), nodes, e);
      assert e.nodes[|nodes|..] == [KeyNode(k)];
      AtKeyStep(o, k);
      AtKeyStep(n, k);
    }
    if k in n && k !in o {
      var e := Entry(Add, path, NilTree, n[k]);
      MapWalkMember(o, n, nodes, o.Keys + n.Keys, e);
      assert e in KeyWalk(o, n, nodes, k);
    }
    if k in o && k !in n {
      var e := Entry(Remove, path, o[k], NilTree);
      MapWalkMember(o, n, nodes, o.Keys + n.Keys, e);
      assert e in KeyWalk(o, n, nodes, k);
    }
  }

  /** Below a key both maps have, the map level reports exactly what
      comparing the two values reports. */
  lemma MapLevelRecurse(o: map<string, Tree>, n: map<string, Tree>, nodes: seq<Node>,
                        k: string, e: Entry)
    requires k in o && k in n
    ensures (e in Walk(Map(o), Map(n), nodes) && nodes + [NewKeyNode(k)] <= e.nodes)
            <==> e in Walk(o[k], n[k], nodes + [NewKeyNode(k)])
  {
    var path := nodes + [NewKeyNode(k)];
    MapWalkMember(o, n, nodes, o.Keys + n.Keys, e);
    if e in Walk(o[k], n[k], path) {
      assert e in KeyWalk(o, n, nodes, k);
      WalkFaithful(o[k], n[k], path, e);
    }
    if e in Walk(Map(o), Map(n), nodes) && path <= e.nodes {
      var j :| j in o.Keys + n.Keys && e in KeyWalk(o, n, nodes, j);
      var pj := nodes + [NewKeyNode(j)];
      if j in o && j in n {
        WalkFaithful(o[j], n[j], pj, e);
      }
      assert pj <= e.nodes;
      assert e.nodes[|nodes|] == pj[|nodes|] == path[|nodes|];
    }
  }

  // ---------------------------------------------------------------------
  // The list level
  // ---------------------------------------------------------------------

  /** At a list level an addition is reported at index i exactly when
      |o| <= i < |n|, carrying the new element. */
  lemma ListLevelAdded(o: seq<Tree>, n: seq<Tree>, nodes: seq<Node>, i: nat)
    ensures (exists e :: e in Walk(List(o), List(n), nodes) && e.action == Add
                         && e.nodes == nodes + [NewIdxNode(i)]) <==> |o| <= i < |n|
    ensures |o| <= i < |n| ==>
              Entry(Add, nodes + [NewIdxNode(i)], NilTree, n[i]) in Walk(List(o), List(n), nodes)
  {
    var path := nodes + [NewIdxNode(i)];
    if exists e :: e in Walk(List(o), List(n), nodes) && e.action == Add && e.nodes == path {
      var e :| e in Walk(List(o), List(n), nodes) && e.action == Add && e.nodes == path;
      ListOwnStep(o, n, nodes, i, e);
    }
    if |o| <= i < |n| {
      var e := Entry(Add, path, NilTree, n[i]);
      assert e in IndexWalk(o, n, nodes, i);
      ListWalkContains(o, n, nodes, MaxLen(o, n), i, e);
    }
  }

  /** At a list level a removal is reported at index i exactly when
      |n| <= i < |o|, carrying the old element. */
  lemma ListLevelRemoved(o: seq<Tree>, n: seq<Tree>, nodes: seq<Node>, i: nat)
    ensures (exists e :: e in Walk(List(o), List(n), nodes) && e.action == Remove
                         && e.nodes == nodes + [NewIdxNode(i)]) <==> |n| <= i < |o|
    ensures |n| <= i < |o| ==>
              Entry(Remove, nodes + [NewIdxNode(i)], o[i], NilTree) in Walk(List(o), List(n), nodes)
  {
    var path := nodes + [NewIdxNode(i)];
    if exists e :: e in Walk(List(o), List(n), nodes) && e.action == Remove && e.nodes == path {
      var e :| e in Walk(List(o), List(n), nodes) && e.action == Remove && e.nodes == path;
      ListOwnStep(o, n, nodes, i, e);
    }
    if |n| <= i < |o| {
      var e := Entry(Remove, path, o[i], NilTree);
      assert e in IndexWalk(o, n, nodes, i);
      ListWalkContains(o, n, nodes, MaxLen(o, n), i, e);
    }
  }

  /** Below a position both lists have, the list level reports exactly what
      comparing the two elements reports. */
  lemma ListLevelRecurse(o: seq<Tree>, n: seq<Tree>, nodes: seq<Node>, i: nat, e: Entry)
    requires i < |o| && i < |n|
    ensures (e in Walk(List(o), List(n), nodes) && nodes + [NewIdxNode(i)] <= e.nodes)
            <==> e in Walk(o[i], n[i], nodes + [NewIdxNode(i)])
  {
    var path := nodes + [NewIdxNode(i)];
    ListWalkMember(o, n, nodes, MaxLen(o, n), e);
    if e in Walk(o[i], n[i], path) {
      assert e in IndexWalk(o, n, nodes, i);
      ListWalkContains(o, n, nodes, MaxLen(o, n), i, e);
      WalkFaithful(o[i], n[i], path, e);
    }
    if e in Walk(List(o), List(n), nodes) && path <= e.nodes {
      var j: nat :| j < MaxLen(o, n) && e in IndexWalk(o, n, nodes, j);
      var pj := nodes + [NewIdxNode(j)];
      if j < |o| && j < |n| {
        WalkFaithful(o[j], n[j], pj, e);
      }
      assert pj <= e.nodes;
      assert e.nodes[|nodes|] == pj[|nodes|] == path[|nodes|];
      NewIdxNodeInjective(i, j);
      assert IndexWalk(o, n, nodes, j) == Walk(o[i], n[i], path);
    }
  }

  /** A record one index below a list level is an addition only past the end
      of the old list and a removal only past the end of the new one. */
  lemma ListOwnStep(o: seq<Tree>, n: seq<Tree>, nodes: seq<Node>, i: nat, e: Entry)
    requires e in Walk(List(o), List(n), nodes) && e.nodes == nodes + [NewIdxNode(i)]
    ensures e.action == Add ==> |o| <= i < |n|
    ensures e.action == Remove ==> |n| <= i < |o|
  {
    WalkFaithful(List(o), List(n), nodes, e);
    assert e.nodes[|nodes|..] == [NewIdxNode(i)];
    AtIndexStep(o, i);
    AtIndexStep(n, i);
  }

  /** A faithful record one step below a list level is an addition only if
      the new list is longer, and a removal only if the old list is. */
  lemma ListStepFaithful(o: seq<Tree>, n: seq<Tree>, nodes: seq<Node>, e: Entry)
    requires Faithful(List(o), List(n), nodes, e) && |e.nodes| == |nodes| + 1
    ensures e.action == Add ==> |o| < |n|
    ensures e.action == Remove ==> |n| < |o|
  {
    var x := e.nodes[|nodes|];
    assert e.nodes[|nodes|..] == [x];
    assert [x][1..] == [];
    if x.IndexNode? && IsDecimal(x.index) {
      var p := ParseDecimal(x.index);
      assert At(List(o), [x]) == if p < |o| then At(o[p], []) else None;
      assert At(List(n), [x]) == if p < |n| then At(n[p], []) else None;
    }
  }

  /** One list level never reports both an addition and a removal of its own
      positions. */
  lemma ListNeverBoth(o: seq<Tree>, n: seq<Tree>, nodes: seq<Node>, a: Entry, r: Entry)
    requires a in Walk(List(o), List(n), nodes) && a.action == Add && |a.nodes| == |nodes| + 1
    requires r in Walk(List(o), List(n), nodes) && r.action == Remove
    ensures |r.nodes| > |nodes| + 1
  {
    WalkFaithful(List(o), List(n), nodes, a);
    WalkFaithful(List(o), List(n), nodes, r);
    ListStepFaithful(o, n, nodes, a);
    if |r.nodes| == |nodes| + 1 {
      ListStepFaithful(o, n, nodes, r);
    }
  }

  // ---------------------------------------------------------------------
  // At most one record per position
  // ---------------------------------------------------------------------

  /** No two entries share a node path. */
  predicate DistinctPaths(es: seq<Entry>) {
    forall i, j :: 0 <= i < j < |es| ==> es[i].nodes != es[j].nodes
  }

  /** The entry lies below `nodes`, one `step` further down. */
  predicate StepBelow(e: Entry, nodes: seq<Node>, step: Node) {
    |e.nodes| > |nodes| && e.nodes[|nodes|] == step
  }

  /** A comparison reports every position at most once: the handlers append
      one record per differing key or index and recurse into each shared
      one once, so no two records carry the same node path. */
  lemma {:induction false} WalkNodesDistinct(o: Tree, n: Tree, nodes: seq<Node>)
    ensures DistinctPaths(Walk(o, n, nodes))
    decreases o
  {
    if o.Map? && n.Map? {
      var om, nm := o.entries, n.entries;
      var f := KeyWalks(om, nm, nodes);
      forall k | k in om.Keys + nm.Keys
        ensures DistinctPaths(f(k))
        ensures forall e :: e in f(k) ==> StepBelow(e, nodes, KeyNode(k))
      {
        assert f(k) == KeyWalk(om, nm, nodes, k);
        var path := nodes + [NewKeyNode(k)];
        if k in om && k in nm {
          WalkNodesDistinct(om[k], nm[k], path);
          forall e | e in f(k)
            ensures StepBelow(e, nodes, KeyNode(k))
          {
            WalkFaithful(om[k], nm[k], path, e);
            assert e.nodes[|nodes|] == path[|nodes|];
          }
        }
      }
      GatherDistinct(f, om.Keys + nm.Keys, nodes);
    } else if o.List? && n.List? {
      var os, ns := o.items, n.items;
      var f := IndexWalks(os, ns, nodes);
      forall i: nat | i < MaxLen(os, ns)
        ensures DistinctPaths(f(i))
        ensures forall e :: e in f(i) ==> StepBelow(e, nodes, NewIdxNode(i))
      {
        assert f(i) == IndexWalk(os, ns, nodes, i);
        var path := nodes + [NewIdxNode(i)];
        if i < |os| && i < |ns| {
          WalkNodesDistinct(os[i], ns[i], path);
          forall e | e in f(i)
            ensures StepBelow(e, nodes, NewIdxNode(i))
          {
            WalkFaithful(os[i], ns[i], path, e);
            assert e.nodes[|nodes|] == path[|nodes|];
          }
        }
      }
      UptoDistinct(f, MaxLen(os, ns), nodes);
    }
  }

  /** Keys' records that are each free of repeated paths and lie below
      their own key gather into records free of repeated paths. */
  lemma {:induction false} GatherDistinct(f: string --> seq<Entry>, keys: set<string>,
                                          nodes: seq<Node>)
    requires forall k :: k in keys ==> f.requires(k)
    requires forall k :: k in keys ==> DistinctPaths(f(k))
    requires forall k, e :: k in keys && e in f(k) ==> StepBelow(e, nodes, KeyNode(k))
    ensures DistinctPaths(Gather(f, keys))
    decreases |keys|
  {
    if keys != {} {
      var k := PickKey(keys);
      var rest := keys - {k};
      GatherDistinct(f, rest, nodes);
      forall x, y | x in f(k) && y in Gather(f, rest)
        ensures x.nodes != y.nodes
      {
        GatherMember(f, rest, y);
        var k' :| k' in rest && y in f(k');
        assert StepBelow(y, nodes, KeyNode(k'));
      }
      DistinctAppend(f(k), Gather(f, rest));
    }
  }

  /** Positions' records that are each free of repeated paths and lie below
      their own index gather into records free of repeated paths. */
  lemma {:induction false} UptoDistinct(f: nat --> seq<Entry>, i: nat, nodes: seq<Node>)
    requires forall j: nat :: j < i ==> f.requires(j)
    requires forall j: nat :: j < i ==> DistinctPaths(f(j))
    requires forall j: nat, e :: j < i && e in f(j) ==> StepBelow(e, nodes, NewIdxNode(j))
    ensures DistinctPaths(Upto(f, i))
  {
    if i > 0 {
      UptoDistinct(f, i - 1, nodes);
      forall x, y | x in Upto(f, i - 1) && y in f(i - 1)
        ensures x.nodes != y.nodes
      {
        UptoMember(f, i - 1, x);
        var j: nat :| j < i - 1 && x in f(j);
        assert StepBelow(x, nodes, NewIdxNode(j));
      }
      DistinctAppend(Upto(f, i - 1), f(i - 1));
    }
  }

  /** Two lists free of repeated paths, with no path in common, concatenate
      into one free of repeated paths. */
  lemma DistinctAppend(a: seq<Entry>, b: seq<Entry>)
    requires DistinctPaths(a) && DistinctPaths(b)
    requires forall x, y :: x in a && y in b ==> x.nodes != y.nodes
    ensures DistinctPaths(a + b)
  {
    var c := a + b;
    forall i, j | 0 <= i < j < |c|
      ensures c[i].nodes != c[j].nodes
    {
      if j < |a| {
        assert c[i] == a[i] && c[j] == a[j];
      } else if |a| <= i {
        assert c[i] == b[i - |a|] && c[j] == b[j - |a|];
      } else {
        assert c[i] in a && c[j] in b;
      }
    }
  }

  /** Reordering keeps paths distinct: a permutation of a list with
      distinct paths has distinct paths. */
  lemma DistinctPermutation(a: seq<Entry>, b: seq<Entry>)
    requires multiset(a) == multiset(b) && DistinctPaths(b)
    ensures DistinctPaths(a)
  {
    CountAtMostOne(b);
    NoRepeats(a);
    forall i, j | 0 <= i < j < |a|
      ensures a[i].nodes != a[j].nodes
    {
      assert a[i] in multiset(b) && a[j] in multiset(b);
      var p :| 0 <= p < |b| && b[p] == a[i];
      var q :| 0 <= q < |b| && b[q] == a[j];
      assert a[i] != a[j];
    }
  }

  /** In a list with distinct paths, no entry occurs twice. */
  lemma {:induction false} CountAtMostOne(b: seq<Entry>)
    requires DistinctPaths(b)
    ensures forall x :: multiset(b)[x] <= 1
    decreases |b|
  {
    if b != [] {
      var rest := b[1..];
      assert b == [b[0]] + rest;
      assert DistinctPaths(rest) by {
        forall i, j | 0 <= i < j < |rest|
          ensures rest[i].nodes != rest[j].nodes
        {
          assert rest[i] == b[i + 1] && rest[j] == b[j + 1];
        }
      }
      CountAtMostOne(rest);
      forall y | y in rest
        ensures y != b[0]
      {
        var k :| 0 <= k < |rest| && rest[k] == y;
        assert b[k + 1] == y;
      }
      assert multiset(rest)[b[0]] == 0;
    }
  }

  /** A list in which every entry occurs at most once has no repeats. */
  lemma {:induction false} NoRepeats(a: seq<Entry>)
    requires forall x :: multiset(a)[x] <= 1
    ensures forall i, j :: 0 <= i < j < |a| ==> a[i] != a[j]
    decreases |a|
  {
    if a != [] {
      var rest := a[1..];
      assert a == [a[0]] + rest;
      assert multiset(a) == multiset{a[0]} + multiset(rest);
      forall x
        ensures multiset(rest)[x] <= 1
      {
        assert multiset(a)[x] == multiset{a[0]}[x] + multiset(rest)[x];
      }
      assert multiset(a)[a[0]] == 1 + multiset(rest)[a[0]];
      NoRepeats(rest);
      forall i, j | 0 <= i < j < |a|
        ensures a[i] != a[j]
      {
        if i == 0 {
          assert a[j] == rest[j - 1] && a[j] in rest;
        } else {
          assert a[i] == rest[i - 1] && a[j] == rest[j - 1];
        }
      }
    }
  }
}

=== FILE: records.dfy ===
/** Change records (`DiffRet`), their canonical order (`DiffRetList.Less`)
    and the sort that puts a list of records into that order. */
module Records {
  import opened Strings
  import opened Values
  import opened Paths

  /** The three kinds of change. */
  datatype Action = Add | Change | Remove

  /** The label each action carries in the source; the comparator orders
      records by these labels. */
  function ActionName(a: Action): string {
    match a
    case Add => "Add"
    case Change => "Change"
    case Remove => "Remove"
  }

  /** One reported difference: its action, its rendered path and the old and
      new values (the untyped nil where a side is absent). */
  datatype DiffRet = DiffRet(action: Action, dotted: string, oldVal: Tree, newVal: Tree)

  /** Builds a record, rendering the node path: the action and both values
      are kept as given, and the path text is the raw text of the steps
      (`RawPath`) with the runs of dots at either end cut off, which
      `Strings.TrimmedUnique` shows determines it. */
  function NewDiffRet(action: Action, nodes: seq<Node>, oldVal: Tree, newVal: Tree): (r: DiffRet)
    ensures r.action == action && r.oldVal == oldVal && r.newVal == newVal
    ensures TrimmedOf(r.dotted, RawPath(nodes), '.')
  {
    DottedTrimmed(nodes);
    DiffRet(action, Dotted(nodes), oldVal, newVal)
  }

  /** The comparator: by action label, then by rendered path. Ordering the
      labels "Add" < "Change" < "Remove" as strings puts all additions first
      and all removals last. */
  predicate RetLess(a: DiffRet, b: DiffRet)
    ensures RetLess(a, b) <==>
              Rank(a.action) < Rank(b.action)
              || (a.action == b.action && Less(a.dotted, b.dotted))
  {
    LabelOrder();
    var c := Compare(ActionName(a.action), ActionName(b.action));
    if c == 0 then Less(a.dotted, b.dotted) else c < 0
  }

  /** How the three labels compare as strings. */
  lemma LabelOrder()
    ensures Compare("Add", "Change") == -1 && Compare("Change", "Add") == 1
    ensures Compare("Change", "Remove") == -1 && Compare("Remove", "Change") == 1
    ensures Compare("Add", "Remove") == -1 && Compare("Remove", "Add") == 1
  {
    assert Compare("Add", "Change") == -1;
    assert Compare("Change", "Remove") == -1;
    assert Compare("Add", "Remove") == -1;
    CompareAntisymmetric("Add", "Change");
    CompareAntisymmetric("Change", "Remove");
    CompareAntisymmetric("Add", "Remove");
  }

  /** The position of an action's group in the canonical order. */
  function Rank(a: Action): nat {
    match a
    case Add => 0
    case Change => 1
    case Remove => 2
  }

  /** Two records tie (neither sorts first) exactly when they share the
      action and the rendered path. */
  lemma RetTie(a: DiffRet, b: DiffRet)
    ensures !RetLess(a, b) && !RetLess(b, a) <==> a.action == b.action && a.dotted == b.dotted
  {
    LessTotal(a.dotted, b.dotted);
  }

  /** The comparator is a strict weak order: asymmetric, and if a sorts
      before c then any b sorts after a or before c. */
  lemma RetLessWeakOrder(a: DiffRet, b: DiffRet, c: DiffRet)
    ensures RetLess(a, b) ==> !RetLess(b, a)
    ensures RetLess(a, c) ==> RetLess(a, b) || RetLess(b, c)
  {
    LessTotal(a.dotted, b.dotted);
    LessTotal(b.dotted, c.dotted);
    if RetLess(a, c) && !RetLess(a, b) && !RetLess(b, c) && a.action == b.action == c.action {
      if a.dotted != b.dotted && b.dotted != c.dotted {
        LessTransitive(c.dotted, b.dotted, a.dotted);
        LessTotal(a.dotted, c.dotted);
      }
    }
  }

  /** In canonical order: no record sorts strictly before an earlier one. */
  predicate Sorted(rs: seq<DiffRet>) {
    forall i, j :: 0 <= i < j < |rs| ==> !RetLess(rs[j], rs[i])
  }

  /** A sorted list lists all additions, then all changes, then all
      removals, each group in path order. */
  lemma SortedGroups(rs: seq<DiffRet>, i: int, j: int)
    requires Sorted(rs) && 0 <= i < j < |rs|
    ensures Rank(rs[i].action) <= Rank(rs[j].action)
    ensures rs[i].action == rs[j].action ==> !Less(rs[j].dotted, rs[i].dotted)
  {
    assert !RetLess(rs[j], rs[i]);
  }

  /** Inserts `r` into a sorted list, before the first element that does not
      sort strictly before it. */
  function Insert(r: DiffRet, rs: seq<DiffRet>): (out: seq<DiffRet>)
    requires Sorted(rs)
    ensures Sorted(out)
    ensures multiset(out) == multiset(rs) + multiset{r}
  {
    if |rs| == 0 then [r]
    else if RetLess(rs[0], r) then
      var tail := Insert(r, rs[1..]);
      assert rs == [rs[0]] + rs[1..];
      HeadBelowInserted(rs, r, tail);
      ConsSorted(rs[0], tail);
      [rs[0]] + tail
    else
      HeadBelowSorted(r, rs);
      ConsSorted(r, rs);
      [r] + rs
  }

  /** A record no later one sorts before can head a sorted list. */
  lemma ConsSorted(x: DiffRet, rs: seq<DiffRet>)
    requires Sorted(rs)
    requires forall y :: y in rs ==> !RetLess(y, x)
    ensures Sorted([x] + rs)
  {
    var out := [x] + rs;
    forall i, j | 0 <= i < j < |out|
      ensures !RetLess(out[j], out[i])
    {
      if i > 0 {
        assert out[i] == rs[i - 1] && out[j] == rs[j - 1];
      } else {
        assert out[j] in rs;
      }
    }
  }

  /** The head of a sorted list that `r` does not follow sorts before no
      element of the list, so neither does `r`. */
  lemma HeadBelowSorted(r: DiffRet, rs: seq<DiffRet>)
    requires Sorted(rs) && |rs| > 0 && !RetLess(rs[0], r)
    ensures forall y :: y in rs ==> !RetLess(y, r)
  {
    forall y | y in rs
      ensures !RetLess(y, r)
    {
      var j :| 0 <= j < |rs| && rs[j] == y;
      RetLessWeakOrder(y, rs[0], r);
    }
  }

  /** The head of a sorted list that sorts before `r` sorts after no element
      of the list with `r` inserted. */
  lemma HeadBelowInserted(rs: seq<DiffRet>, r: DiffRet, tail: seq<DiffRet>)
    requires Sorted(rs) && |rs| > 0 && RetLess(rs[0], r)
    requires multiset(tail) == multiset(rs[1..]) + multiset{r}
    ensures forall y :: y in tail ==> !RetLess(y, rs[0])
  {
    forall y | y in tail
      ensures !RetLess(y, rs[0])
    {
      assert y in multiset(tail);
      if y == r {
        RetLessWeakOrder(rs[0], r, r);
      } else {
        assert y in rs[1..];
        var j :| 0 <= j < |rs[1..]| && rs[1..][j] == y;
        assert rs[j + 1] == y;
      }
    }
  }

  /** Puts records into canonical order (the effect of `sort.Sort` with the
      source's comparator; only the result, not Go's algorithm, is modelled). */
  function SortRets(rs: seq<DiffRet>): (out: seq<DiffRet>)
    ensures Sorted(out)
    ensures multiset(out) == multiset(rs)
  {
    if |rs| == 0 then []
    else
      assert rs == [rs[0]] + rs[1..];
      Insert(rs[0], SortRets(rs[1..]))
  }
}

=== FILE: setter.dfy ===
/** Assigning a nested value by path (`SetItems`, `setItems`). The source
    writes into the caller's maps in place; here the assignment returns the
    updated root map, and on error the caller keeps the map it had, which
    the source leaves untouched because it writes only at the last level. */
module Setter {
  import opened Strings
  import opened Wrappers
  import opened Values
  import opened Paths
  import opened Positions
  import opened Getter

  /** `setItems`: writes `val` under the last segment of the generic map the
      other segments lead to. No map is created on the way: every segment
      before the last must already name a generic map. */
  function Assign(obj: map<string, Tree>, segs: seq<string>, val: Tree)
    : (r: Result<map<string, Tree>, PathError>)
    ensures r == Err(EmptyPaths) <==> |segs| == 0
    ensures r.Ok? <==> |segs| > 0 && Descend(obj, segs[..|segs| - 1]).Some?
    ensures r.Ok? ==> r.value.Keys == obj.Keys + {segs[0]}
    ensures r.Ok? && |segs| > 1 ==> segs[0] in obj && obj[segs[0]].Map? && r.value[segs[0]].Map?
    ensures r.Ok? ==> forall k :: k in obj && k != segs[0] ==> r.value[k] == obj[k]
    ensures r.Err? ==> r.error == EmptyPaths || r.error.KeyNotExistOrNotMap?
    decreases |segs|
  {
    if |segs| == 0 then Err(EmptyPaths)
    else
      var k := segs[0];
      assert segs[..|segs| - 1] == if |segs| == 1 then [] else [k] + segs[1..][..|segs| - 2];
      if |segs| == 1 then Ok(obj[k := val])
      else if k in obj && obj[k].Map? then
        match Assign(obj[k].entries, segs[1..], val)
        case Ok(sub) => Ok(obj[k := Map(sub)])
        case Err(e) => Err(e)
      else Err(KeyNotExistOrNotMap(k))
  }

  /** `SetItems`: assigns at a path argument, which is resolved as the
      getter resolves it; after a successful assignment the getter finds the
      assigned value at the same path. */
  function SetItems(obj: map<string, Tree>, paths: PathArg, val: Tree)
    : (r: Result<map<string, Tree>, PathError>)
    ensures paths.OtherPath? <==> r == Err(InvalidPathType)
    ensures var s := Segments(paths);
            r.Ok? <==> s.Ok? && |s.value| > 0 && Descend(obj, s.value[..|s.value| - 1]).Some?
    ensures r.Ok? ==> r == Assign(obj, Segments(paths).value, val)
    ensures r.Ok? ==> forall k :: k in obj && k != Segments(paths).value[0] ==> r.value[k] == obj[k]
    ensures r.Err? ==> r.error == InvalidPathType || r.error == EmptyPaths || r.error.KeyNotExistOrNotMap?
    ensures r.Ok? ==> GetItems(r.value, paths) == Ok(val)
  {
    match Segments(paths)
    case Err(e) => Err(e)
    case Ok(segs) =>
      var r := Assign(obj, segs, val);
      if r.Ok? then SetThenGet(obj, segs, val); r else r
  }

  /** Round trip: after a successful assignment, looking the same segments
      up yields the assigned value. */
  lemma {:induction false} SetThenGet(obj: map<string, Tree>, segs: seq<string>, val: Tree)
    requires Assign(obj, segs, val).Ok?
    ensures LookUp(Assign(obj, segs, val).value, segs) == Ok(val)
    decreases |segs|
  {
    if |segs| > 1 {
      SetThenGet(obj[segs[0]].entries, segs[1..], val);
    }
  }

  /** Nothing else changes: a path that parts from the assigned one at some
      level `d` leads to what it led to before, at every level. */
  lemma {:induction false} AssignFrame(obj: map<string, Tree>, segs: seq<string>, val: Tree,
                                       q: seq<string>, d: nat)
    requires Assign(obj, segs, val).Ok?
    requires d < |q| && d < |segs| && q[d] != segs[d]
    ensures At(Map(Assign(obj, segs, val).value), KeyPath(q)) == At(Map(obj), KeyPath(q))
    decreases d
  {
    var m := Assign(obj, segs, val).value;
    var k := q[0];
    assert KeyPath(q) == [KeyNode(k)] + KeyPath(q[1..]);
    AtCons(Map(m), KeyNode(k), KeyPath(q[1..]));
    AtCons(Map(obj), KeyNode(k), KeyPath(q[1..]));
    AtKeyStep(m, k);
    AtKeyStep(obj, k);
    if k == segs[0] {
      AssignFrame(obj[k].entries, segs[1..], val, q[1..], d - 1);
    }
  }

  /** Where an assignment fails: once `segs[..i]` has led through generic
      maps to `m`, a segment before the last that is absent from `m` or names
      something other than a generic map is the key reported. */
  lemma {:induction false} AssignAtLevel(obj: map<string, Tree>, segs: seq<string>, val: Tree, i: nat)
    requires i + 1 < |segs| && Descend(obj, segs[..i]).Some?
    requires var m := Descend(obj, segs[..i]).value; !(segs[i] in m && m[segs[i]].Map?)
    ensures Assign(obj, segs, val) == Err(KeyNotExistOrNotMap(segs[i]))
    decreases i
  {
    if i > 0 {
      var k := segs[0];
      assert segs[..i] == [k] + segs[1..][..i - 1];
      assert segs[..i][1..] == segs[1..][..i - 1];
      AssignAtLevel(obj[k].entries, segs[1..], val, i - 1);
    }
  }

  /** The setter fails under the getter's conditions: wherever it reports a
      key, the getter reports the same key as missing or as not a map, and
      it succeeds wherever the getter does. */
  lemma {:induction false} SetFailsLikeGet(obj: map<string, Tree>, segs: seq<string>, val: Tree)
    ensures forall k :: Assign(obj, segs, val) == Err(KeyNotExistOrNotMap(k)) ==>
              LookUp(obj, segs) == Err(KeyNotExist(k)) || LookUp(obj, segs) == Err(ValNotMap(k))
    ensures LookUp(obj, segs).Ok? ==> Assign(obj, segs, val).Ok?
    decreases |segs|
  {
    if |segs| > 1 && segs[0] in obj && obj[segs[0]].Map? {
      SetFailsLikeGet(obj[segs[0]].entries, segs[1..], val);
    }
  }

  /** A list of segments without dots, joined with dots, assigns at the same
      place as the list itself. */
  lemma JoinedSetPath(obj: map<string, Tree>, segs: seq<string>, val: Tree)
    requires |segs| > 0 && forall i :: 0 <= i < |segs| ==> '.' !in segs[i]
    ensures SetItems(obj, StrPath(Join(segs, '.')), val) == SetItems(obj, SegPath(segs), val)
  {
    SplitJoin(segs, '.');
  }
}

=== FILE: strings.dfy ===
/** String helpers the library takes from Go's standard library: ordering
    (`strings.Compare`), decimal rendering (`strconv.Itoa`), trimming
    (`strings.Trim` with a one-character cutset) and splitting
    (`strings.Split` with a one-character separator).

    Strings are sequences of code points. For valid UTF-8, Go's byte-wise
    comparison orders strings exactly as code-point-wise comparison does, so
    `Less` below is the order `strings.Compare` induces. */
module Strings {

  // ---------------------------------------------------------------------
  // Lexicographic order (strings.Compare)
  // ---------------------------------------------------------------------

  /** Three-way comparison: negative, zero or positive as `a` sorts before,
      equal to, or after `b`. */
  function Compare(a: string, b: string): (r: int)
    ensures r == 0 <==> a == b
    ensures -1 <= r <= 1
  {
    if |a| == 0 && |b| == 0 then 0
    else if |a| == 0 then -1
    else if |b| == 0 then 1
    else if a[0] < b[0] then -1
    else if b[0] < a[0] then 1
    else
      var c := Compare(a[1..], b[1..]);
      assert c == 0 ==> a == [a[0]] + a[1..] == [b[0]] + b[1..] == b;
      c
  }

  /** Strict lexicographic order. */
  predicate Less(a: string, b: string) {
    Compare(a, b) < 0
  }

  lemma {:induction false} CompareAntisymmetric(a: string, b: string)
    ensures Compare(b, a) == -Compare(a, b)
    decreases |a|
  {
    if |a| > 0 && |b| > 0 && a[0] == b[0] {
      CompareAntisymmetric(a[1..], b[1..]);
    }
  }

  lemma {:induction false} LessTransitive(a: string, b: string, c: string)
    requires Less(a, b) && Less(b, c)
    ensures Less(a, c)
    decreases |a|
  {
    if |a| > 0 && |b| > 0 && |c| > 0 && a[0] == b[0] && b[0] == c[0] {
      LessTransitive(a[1..], b[1..], c[1..]);
    }
  }

  /** `Less` is a strict total order: irreflexive, asymmetric, connected. */
  lemma LessTotal(a: string, b: string)
    ensures !Less(a, a)
    ensures Less(a, b) ==> !Less(b, a)
    ensures a != b ==> Less(a, b) || Less(b, a)
  {
    CompareAntisymmetric(a, b);
  }

  /** `a` sorts before `b` at position `i`: the two agree below `i`, and at
      `i` either `a` has ended while `b` goes on, or `a`'s character is the
      smaller one. */
  predicate LexBefore(a: string, b: string, i: nat) {
    i <= |a| && i < |b| && a[..i] == b[..i] && (i == |a| || a[i] < b[i])
  }

  /** Where `a` sorts before `b`, the position that decides it. */
  lemma {:induction false} LessWitness(a: string, b: string) returns (i: nat)
    requires Less(a, b)
    ensures LexBefore(a, b, i)
    decreases |a|
  {
    if |a| == 0 || a[0] < b[0] {
      i := 0;
    } else {
      var j := LessWitness(a[1..], b[1..]);
      i := j + 1;
      assert a[..i] == [a[0]] + a[1..][..j];
      assert b[..i] == [b[0]] + b[1..][..j];
    }
  }

  /** A deciding position makes `a` sort before `b`. */
  lemma {:induction false} LexBeforeLess(a: string, b: string, i: nat)
    requires LexBefore(a, b, i)
    ensures Less(a, b)
    decreases i
  {
    if i > 0 {
      assert a[0] == a[..i][0] == b[..i][0] == b[0];
      assert a[1..][..i - 1] == a[..i][1..] == b[..i][1..] == b[1..][..i - 1];
      LexBeforeLess(a[1..], b[1..], i - 1);
    }
  }

  /** `Less` is the lexicographic order: `a` sorts before `b` exactly when it
      is a proper prefix of `b` or, at the first position where they differ,
      has the smaller character. */
  lemma LessLexicographic(a: string, b: string)
    ensures Less(a, b) <==> exists i: nat :: LexBefore(a, b, i)
  {
    if Less(a, b) {
      var i := LessWitness(a, b);
    }
    if i: nat :| LexBefore(a, b, i) {
      LexBeforeLess(a, b, i);
    }
  }

  // ---------------------------------------------------------------------
  // Decimal rendering (strconv.Itoa) and its inverse
  // ---------------------------------------------------------------------

  predicate IsDigit(c: char) {
    '0' <= c <= '9'
  }

  predicate IsDecimal(s: string) {
    |s| > 0 && forall i :: 0 <= i < |s| ==> IsDigit(s[i])
  }

  /** The canonical decimal form: digits only, no superfluous leading zero. */
  predicate IsCanonicalDecimal(s: string) {
    IsDecimal(s) && (s[0] == '0' ==> |s| == 1)
  }

  function DigitChar(d: nat): (c: char)
    requires d < 10
    ensures IsDigit(c)
  {
    ['0', '1', '2', '3', '4', '5', '6', '7', '8', '9'][d]
  }

  function DigitValue(c: char): nat
    requires IsDigit(c)
  {
    (c as int - '0' as int) as nat
  }

  /** Reads a string of digits as a number, most significant digit first. */
  function ParseDecimal(s: string): nat
    requires forall i :: 0 <= i < |s| ==> IsDigit(s[i])
  {
    if |s| == 0 then 0
    else ParseDecimal(s[..|s| - 1]) * 10 + DigitValue(s[|s| - 1])
  }

  /** The decimal rendering of a non-negative integer, as `strconv.Itoa`
      produces it. */
  function Itoa(n: nat): (s: string)
    ensures IsCanonicalDecimal(s)
    ensures ParseDecimal(s) == n
  {
    if n < 10 then
      var s := [DigitChar(n)];
      assert s[..0] == [];
      s
    else
      var p := Itoa(n / 10);
      var s := p + [DigitChar(n % 10)];
      assert s[..|s| - 1] == p;
      s
  }

  /** Distinct numbers render as distinct strings. */
  lemma ItoaInjective(m: nat, n: nat)
    requires Itoa(m) == Itoa(n)
    ensures m == n
  {
  }

  // ---------------------------------------------------------------------
  // Trimming (strings.Trim with a one-character cutset)
  // ---------------------------------------------------------------------

  predicate AllChar(s: string, c: char) {
    forall i :: 0 <= i < |s| ==> s[i] == c
  }

  /** Drops every leading occurrence of `c`. */
  function TrimLeft(s: string, c: char): (r: string)
    ensures |r| <= |s| && r == s[|s| - |r|..]
    ensures AllChar(s[..|s| - |r|], c)
    ensures r == [] || r[0] != c
  {
    if |s| > 0 && s[0] == c then
      var r := TrimLeft(s[1..], c);
      assert s[1..][|s| - 1 - |r|..] == s[|s| - |r|..];
      r
    else s
  }

  /** Drops every trailing occurrence of `c`. */
  function TrimRight(s: string, c: char): (r: string)
    ensures |r| <= |s| && r == s[..|r|]
    ensures AllChar(s[|r|..], c)
    ensures r == [] || r[|r| - 1] != c
  {
    if |s| > 0 && s[|s| - 1] == c then
      var r := TrimRight(s[..|s| - 1], c);
      assert s[..|s| - 1][..|r|] == s[..|r|];
      r
    else s
  }

  /** Drops every leading and every trailing occurrence of `c`. */
  function Trim(s: string, c: char): (r: string)
    ensures r == [] || (r[0] != c && r[|r| - 1] != c)
  {
    TrimRight(TrimLeft(s, c), c)
  }

  /** The trimmed string is the infix of `s` left once a run of `c` is cut
      from each end, and it neither starts nor ends with `c`: it is the
      longest such infix. */
  lemma TrimInfix(s: string, c: char) returns (i: nat, r: string)
    ensures r == Trim(s, c)
    ensures i + |r| <= |s| && r == s[i..i + |r|]
    ensures AllChar(s[..i], c) && AllChar(s[i + |r|..], c)
  {
    var l := TrimLeft(s, c);
    r := TrimRight(l, c);
    i := |s| - |l|;
    CutBothEnds(s, c, i, l, r);
  }

  /** Cutting a run of `c` from the front of `s` and then from the back of
      the rest leaves an infix of `s` with a run of `c` on each side. */
  lemma CutBothEnds(s: string, c: char, i: nat, l: string, r: string)
    requires i <= |s| && l == s[i..] && AllChar(s[..i], c)
    requires |r| <= |l| && r == l[..|r|] && AllChar(l[|r|..], c)
    ensures i + |r| <= |s| && r == s[i..i + |r|] && AllChar(s[i + |r|..], c)
  {
    assert l[|r|..] == s[i + |r|..];
  }

  /** `p` is what is left of `raw` once the run of `c` at each end is cut,
      witnessed by the cut's start `i`: `p` is the infix of `raw` at `i`,
      only `c` lies outside it, and it neither starts nor ends with `c`. */
  predicate CutAt(p: string, raw: string, c: char, i: nat) {
    && i + |p| <= |raw| && p == raw[i..i + |p|]
    && AllChar(raw[..i], c) && AllChar(raw[i + |p|..], c)
    && (p == [] || (p[0] != c && p[|p| - 1] != c))
  }

  /** `p` is `raw` trimmed of `c` at both ends. */
  ghost predicate TrimmedOf(p: string, raw: string, c: char) {
    exists i: nat :: CutAt(p, raw, c, i)
  }

  /** Trimming has one result: two strings both left once the runs of `c`
      are cut from the ends of `raw` are the same string. */
  lemma TrimmedUnique(p: string, q: string, raw: string, c: char)
    requires TrimmedOf(p, raw, c) && TrimmedOf(q, raw, c)
    ensures p == q
  {
    var i: nat :| CutAt(p, raw, c, i);
    var j: nat :| CutAt(q, raw, c, j);
    CutBounds(p, raw, c, i);
    CutBounds(q, raw, c, j);
    if p != [] && q != [] {
      assert i == j;
      assert |p| == |q|;
    }
  }

  /** Where a cut lies: only `c` before and after it, and, when it is not
      empty, something other than `c` at its first and last position. */
  lemma CutBounds(p: string, raw: string, c: char, i: nat)
    requires CutAt(p, raw, c, i)
    ensures forall k :: 0 <= k < i ==> raw[k] == c
    ensures forall k :: i + |p| <= k < |raw| ==> raw[k] == c
    ensures p != [] ==> raw[i] != c && raw[i + |p| - 1] != c
  {
    forall k | 0 <= k < i
      ensures raw[k] == c
    {
      assert raw[..i][k] == raw[k];
    }
    forall k | i + |p| <= k < |raw|
      ensures raw[k] == c
    {
      assert raw[i + |p|..][k - i - |p|] == raw[k];
    }
  }

  /** Trimming twice trims nothing more. */
  lemma TrimIdempotent(s: string, c: char)
    ensures Trim(Trim(s, c), c) == Trim(s, c)
  {
    var r := Trim(s, c);
    assert TrimLeft(r, c) == r;
    assert TrimRight(r, c) == r;
  }

  // ---------------------------------------------------------------------
  // Splitting (strings.Split with a one-character separator) and joining
  // ---------------------------------------------------------------------

  /** Joins the parts with `sep` between consecutive parts. */
  function Join(parts: seq<string>, sep: char): string
    requires |parts| > 0
  {
    if |parts| == 1 then parts[0]
    else parts[0] + [sep] + Join(parts[1..], sep)
  }

  /** Splits `s` at every occurrence of `sep`. As in Go, the result is never
      empty: an empty string yields one empty part, and a separator at either
      end yields an empty part there. */
  function Split(s: string, sep: char): (parts: seq<string>)
    ensures |parts| > 0
    ensures forall i :: 0 <= i < |parts| ==> sep !in parts[i]
    ensures Join(parts, sep) == s
  {
    if |s| == 0 then [""]
    else
      var rest := Split(s[1..], sep);
      if s[0] == sep then
        assert s == [sep] + s[1..];
        [""] + rest
      else
        var parts := [[s[0]] + rest[0]] + rest[1..];
        assert parts[1..] == rest[1..];
        assert s == [s[0]] + s[1..];
        parts
  }

  /** Splitting undoes joining, as long as no part contains the separator. */
  lemma {:induction false} SplitJoin(parts: seq<string>, sep: char)
    requires |parts| > 0
    requires forall i :: 0 <= i < |parts| ==> sep !in parts[i]
    ensures Split(Join(parts, sep), sep) == parts
    decreases |parts|, |parts[0]|
  {
    var p := parts[0];
    if |p| == 0 {
      if |parts| > 1 {
        var rest := parts[1..];
        SplitJoin(rest, sep);
        assert Join(parts, sep) == [sep] + Join(rest, sep);
        SplitCons(sep, Join(rest, sep), sep);
        assert parts == [""] + rest;
      }
    } else {
      var shorter := [p[1..]] + parts[1..];
      forall i | 0 <= i < |shorter|
        ensures sep !in shorter[i]
      {
        if i == 0 {
          assert p == [p[0]] + p[1..];
        } else {
          assert shorter[i] == parts[i];
        }
      }
      SplitJoin(shorter, sep);
      JoinHead(parts, sep);
      SplitCons(p[0], Join(shorter, sep), sep);
      assert [p[0]] + p[1..] == p;
      assert [p] + parts[1..] == parts;
    }
  }

  /** Splitting a string with a known first character. */
  lemma SplitCons(x: char, s: string, sep: char)
    ensures Split([x] + s, sep) == if x == sep then [""] + Split(s, sep)
                                   else [[x] + Split(s, sep)[0]] + Split(s, sep)[1..]
  {
    assert ([x] + s)[1..] == s;
  }

  /** Joining parts whose first part is not empty starts with that part's
      first character. */
  lemma JoinHead(parts: seq<string>, sep: char)
    requires |parts| > 0 && |parts[0]| > 0
    ensures Join(parts, sep) == [parts[0][0]] + Join([parts[0][1..]] + parts[1..], sep)
  {
    var shorter := [parts[0][1..]] + parts[1..];
    assert shorter[1..] == parts[1..];
    assert parts[0] == [parts[0][0]] + parts[0][1..];
  }
}

=== FILE: values.dfy ===
/** The values the library works on: a generic Go `map[string]any` /
    `[]any` tree whose leaves are opaque scalars.

    Go's `reflect.DeepEqual` becomes structural equality of these datatypes,
    and the type assertions `v.(map[string]any)` and `v.([]any)` become the
    constructor tests `Map?` and `List?`. */
module Values {

  /** Go's `int64` is a 64-bit two's-complement integer, and so is `int` on
      the 64-bit platforms this model assumes (on 32-bit platforms `int` is
      narrower; the model keeps the wider range for both). */
  newtype int64 = x: int | -0x8000_0000_0000_0000 <= x < 0x8000_0000_0000_0000

  /** A leaf. Go's dynamic type is part of the value: an `int` 10 and an
      `int64` 10 are different leaves, as they are for `DeepEqual` and for the
      typed getters. */
  datatype Scalar =
    | Nil                                  // the untyped nil
    | Bool(b: bool)
    | Int(i: int64)                        // Go `int`
    | Int64(n: int64)                      // Go `int64`
    | Float64(bits: bv64)                  // IEEE-754 bit pattern, compared as a token
    | Str(s: string)
    /** A composite whose dynamic Go type is not the generic map or list
        (for instance `map[string]string` or `[]map[string]any`). Its content
        has the shape of a tree, but the differ and the getter treat it as an
        atom, exactly as the source's type assertions do. `goType` is not
        constrained: a value naming the generic map or list type itself has
        no Go counterpart, and nothing in the model builds one. A nil and an
        empty composite of the same type are the same value here (see the
        README's "Left out"). */
    | Typed(goType: string, content: Tree)

  datatype Tree =
    | Map(entries: map<string, Tree>)      // map[string]any
    | List(items: seq<Tree>)               // []any
    | Leaf(scalar: Scalar)

  /** The untyped nil as a tree value. */
  const NilTree := Leaf(Nil)
}

=== FILE: walk.dfy ===
/** The reference semantics of the differ: the records one lock-step walk of
    two trees collects, before sorting, as structured entries whose paths are
    node sequences rather than rendered strings.

    Go iterates map keys in no fixed order; the walk below visits them in an
    arbitrary but fixed order (`PickKey`), and everything stated about the
    differ's output is insensitive to that order. */
module DiffWalk {
  import opened Values
  import opened Paths
  import opened Records

  /** A collected record before its path is rendered. */
  datatype Entry = Entry(action: Action, nodes: seq<Node>, oldVal: Tree, newVal: Tree)

  /** The record the source builds for an entry. */
  function Render(e: Entry): DiffRet {
    NewDiffRet(e.action, e.nodes, e.oldVal, e.newVal)
  }

  /** The records for a list of entries, in the same order. */
  function RenderAll(es: seq<Entry>): seq<DiffRet> {
    MapSeq(Render, es)
  }

  /** Applies `f` to every element. */
  function MapSeq<A, B>(f: A -> B, s: seq<A>): (r: seq<B>)
    ensures |r| == |s|
  {
    if s == [] then [] else [f(s[0])] + MapSeq(f, s[1..])
  }

  /** Whether the type assertions `.(map[string]any)` on both sides succeed,
      or `.([]any)` on both sides: the cases in which the walk descends. */
  predicate Descends(o: Tree, n: Tree) {
    (o.Map? && n.Map?) || (o.List? && n.List?)
  }

  function MaxLen(o: seq<Tree>, n: seq<Tree>): nat {
    if |o| < |n| then |n| else |o|
  }

  /** Some key of a non-empty key set; which one is immaterial. */
  ghost function PickKey(keys: set<string>): (k: string)
    requires keys != {}
    ensures k in keys
  {
    var k :| k in keys; k
  }

  /** The records for the position at `nodes` (`Differ.handle`). */
  ghost function Walk(o: Tree, n: Tree, nodes: seq<Node>): seq<Entry>
    decreases o, 2, 0
  {
    if o.Map? && n.Map? then
      MapWalk(o.entries, n.entries, nodes, o.entries.Keys + n.entries.Keys)
    else if o.List? && n.List? then
      ListWalk(o.items, n.items, nodes, MaxLen(o.items, n.items))
    else if o == n then []
    else [Entry(Change, nodes, o, n)]
  }

  /** The records for the given keys of two maps (`Differ.handleMap`). */
  ghost function MapWalk(o: map<string, Tree>, n: map<string, Tree>, nodes: seq<Node>,
                         keys: set<string>): seq<Entry>
    requires keys <= o.Keys + n.Keys
    decreases Map(o), 1, 0
  {
    Gather(KeyWalks(o, n, nodes), keys)
  }

  /** `KeyWalk` at a level, as a function of the key. */
  ghost function KeyWalks(o: map<string, Tree>, n: map<string, Tree>, nodes: seq<Node>)
    : string --> seq<Entry>
    decreases Map(o), 0, 1
  {
    k requires k in o || k in n => KeyWalk(o, n, nodes, k)
  }

  /** The records for one key: recurse into a key of the intersection, add a
      key only `n` has, remove a key only `o` has. */
  ghost function KeyWalk(o: map<string, Tree>, n: map<string, Tree>, nodes: seq<Node>,
                         k: string): seq<Entry>
    requires k in o || k in n
    decreases Map(o), 0, 0
  {
    var path := nodes + [NewKeyNode(k)];
    if k in o && k in n then Walk(o[k], n[k], path)
    else if k in n then [Entry(Add, path, NilTree, n[k])]
    else [Entry(Remove, path, o[k], NilTree)]
  }

  /** The records for the positions below `i` of two lists
      (`Differ.handleList`). */
  ghost function ListWalk(o: seq<Tree>, n: seq<Tree>, nodes: seq<Node>, i: nat): seq<Entry>
    requires i <= MaxLen(o, n)
    decreases List(o), 1, 0
  {
    Upto(IndexWalks(o, n, nodes), i)
  }

  /** `IndexWalk` at a level, as a function of the position. */
  ghost function IndexWalks(o: seq<Tree>, n: seq<Tree>, nodes: seq<Node>): nat --> seq<Entry>
    decreases List(o), 0, 1
  {
    (i: nat) requires i < MaxLen(o, n) => IndexWalk(o, n, nodes, i)
  }

  /** The records for one position: recurse below the shorter length, add
      past the end of `o`, remove past the end of `n`. */
  ghost function IndexWalk(o: seq<Tree>, n: seq<Tree>, nodes: seq<Node>, i: nat): seq<Entry>
    requires i < MaxLen(o, n)
    decreases List(o), 0, 0
  {
    var path := nodes + [NewIdxNode(i)];
    if i < |o| && i < |n| then Walk(o[i], n[i], path)
    else if i < |n| then [Entry(Add, path, NilTree, n[i])]
    else [Entry(Remove, path, o[i], NilTree)]
  }

  // ---------------------------------------------------------------------
  // Collecting per key and per position
  // ---------------------------------------------------------------------

  /** The records `f(k)` of every key of `keys`, concatenated in `PickKey`
      order. */
  ghost function Gather(f: string --> seq<Entry>, keys: set<string>): seq<Entry>
    requires forall k :: k in keys ==> f.requires(k)
    decreases |keys|
  {
    if keys == {} then []
    else
      var k := PickKey(keys);
      f(k) + Gather(f, keys - {k})
  }

  /** The records `f(j)` of every position below `i`, in ascending order. */
  ghost function Upto(f: nat --> seq<Entry>, i: nat): seq<Entry>
    requires forall j: nat :: j < i ==> f.requires(j)
  {
    if i == 0 then [] else Upto(f, i - 1) + f(i - 1)
  }

  /** Dropping one element drops its image. */
  lemma {:induction false} MapSeqRemove<A, B>(f: A -> B, p: seq<A>, x: A, q: seq<A>)
    ensures multiset(MapSeq(f, p + [x] + q)) == multiset(MapSeq(f, p + q)) + multiset{f(x)}
    decreases |p|
  {
    if p == [] {
      assert p + [x] + q == [x] + q && p + q == q;
      assert ([x] + q)[1..] == q;
    } else {
      assert (p + [x] + q)[1..] == p[1..] + [x] + q;
      assert (p + q)[1..] == p[1..] + q;
      MapSeqRemove(f, p[1..], x, q);
    }
  }

  /** Removing the same element from two permutations of each other leaves
      permutations of each other. */
  lemma PermutationRemove<A>(a: seq<A>, p: seq<A>, q: seq<A>)
    requires a != [] && multiset(a) == multiset(p + [a[0]] + q)
    ensures multiset(a[1..]) == multiset(p + q)
  {
    assert a == [a[0]] + a[1..];
    assert multiset(a) == multiset(a[1..]) + multiset{a[0]};
    assert multiset(p + [a[0]] + q) == multiset(p + q) + multiset{a[0]};
    assert multiset(a[1..]) == multiset(a) - multiset{a[0]};
    assert multiset(p + q) == multiset(p + [a[0]] + q) - multiset{a[0]};
  }

  /** Mapping commutes with reordering: lists that are permutations of each
      other map to lists that are permutations of each other. */
  lemma {:induction false} MapSeqMultiset<A, B>(f: A -> B, a: seq<A>, b: seq<A>)
    requires multiset(a) == multiset(b)
    ensures multiset(MapSeq(f, a)) == multiset(MapSeq(f, b))
    decreases |a|
  {
    if a != [] {
      assert a[0] in multiset(b);
      var i :| 0 <= i < |b| && b[i] == a[0];
      var p, q := b[..i], b[i + 1..];
      assert b == p + [a[0]] + q;
      PermutationRemove(a, p, q);
      MapSeqMultiset(f, a[1..], p + q);
      MapSeqRemove(f, p, a[0], q);
    } else {
      assert b == [];
    }
  }

  /** The gathered records do not depend on the order in which keys are
      visited: any key of the set can be taken first. */
  lemma {:induction false} GatherSplit(f: string --> seq<Entry>, keys: set<string>, k: string)
    requires forall j :: j in keys ==> f.requires(j)
    requires k in keys
    ensures multiset(Gather(f, keys)) == multiset(f(k)) + multiset(Gather(f, keys - {k}))
    decreases |keys|
  {
    var j := PickKey(keys);
    if j != k {
      GatherSplit(f, keys - {j}, k);
      GatherSplit(f, keys - {k}, j);
      assert keys - {j} - {k} == keys - {k} - {j};
    }
  }

  /** The records for two disjoint key sets together are those of each. */
  lemma {:induction false} GatherUnion(f: string --> seq<Entry>, a: set<string>, b: set<string>)
    requires forall k :: k in a + b ==> f.requires(k)
    requires a !! b
    ensures multiset(Gather(f, a + b)) == multiset(Gather(f, a)) + multiset(Gather(f, b))
    decreases |b|
  {
    if b == {} {
      assert a + b == a;
    } else {
      var k := PickKey(b);
      GatherSplit(f, a + b, k);
      GatherSplit(f, b, k);
      assert a + b - {k} == a + (b - {k});
      GatherUnion(f, a, b - {k});
    }
  }

  /** An entry is gathered exactly when some key contributes it. */
  lemma {:induction false} GatherMember(f: string --> seq<Entry>, keys: set<string>, e: Entry)
    requires forall k :: k in keys ==> f.requires(k)
    ensures e in Gather(f, keys) <==> exists k :: k in keys && e in f(k)
    decreases |keys|
  {
    if keys != {} {
      var j := PickKey(keys);
      GatherMember(f, keys - {j}, e);
    }
  }

  /** Nothing is gathered exactly when no key contributes anything. */
  lemma {:induction false} GatherEmpty(f: string --> seq<Entry>, keys: set<string>)
    requires forall k :: k in keys ==> f.requires(k)
    ensures Gather(f, keys) == [] <==> forall k :: k in keys ==> f(k) == []
    decreases |keys|
  {
    if keys != {} {
      var j := PickKey(keys);
      GatherEmpty(f, keys - {j});
    }
  }

  /** An entry is collected below `i` exactly when some position below `i`
      contributes it. */
  lemma {:induction false} UptoMember(f: nat --> seq<Entry>, i: nat, e: Entry)
    requires forall j: nat :: j < i ==> f.requires(j)
    ensures e in Upto(f, i) <==> exists j: nat :: j < i && e in f(j)
  {
    if i > 0 {
      UptoMember(f, i - 1, e);
    }
  }

  /** Nothing is collected below `i` exactly when no position below `i`
      contributes anything. */
  lemma {:induction false} UptoEmpty(f: nat --> seq<Entry>, i: nat)
    requires forall j: nat :: j < i ==> f.requires(j)
    ensures Upto(f, i) == [] <==> forall j: nat :: j < i ==> f(j) == []
  {
    if i > 0 {
      UptoEmpty(f, i - 1);
    }
  }

  /** A map level's records do not depend on the order of its keys: any key
      can be taken first. */
  lemma MapWalkSplit(o: map<string, Tree>, n: map<string, Tree>,
                     nodes: seq<Node>, keys: set<string>, k: string)
    requires keys <= o.Keys + n.Keys && k in keys
    ensures multiset(MapWalk(o, n, nodes, keys))
         == multiset(KeyWalk(o, n, nodes, k)) + multiset(MapWalk(o, n, nodes, keys - {k}))
  {
    GatherSplit(KeyWalks(o, n, nodes), keys, k);
  }

  /** A map level's records for two disjoint key sets together are those of
      each. */
  lemma MapWalkUnion(o: map<string, Tree>, n: map<string, Tree>, nodes: seq<Node>,
                     a: set<string>, b: set<string>)
    requires a <= o.Keys + n.Keys && b <= o.Keys + n.Keys && a !! b
    ensures multiset(MapWalk(o, n, nodes, a + b))
         == multiset(MapWalk(o, n, nodes, a)) + multiset(MapWalk(o, n, nodes, b))
  {
    GatherUnion(KeyWalks(o, n, nodes), a, b);
  }

  /** One more position appends that position's records. */
  lemma ListWalkStep(o: seq<Tree>, n: seq<Tree>, nodes: seq<Node>, i: nat)
    requires i < MaxLen(o, n)
    ensures ListWalk(o, n, nodes, i + 1) == ListWalk(o, n, nodes, i) + IndexWalk(o, n, nodes, i)
  {
    assert Upto(IndexWalks(o, n, nodes), i + 1)
        == Upto(IndexWalks(o, n, nodes), i) + IndexWalks(o, n, nodes)(i);
  }

  /** The intersection, the keys only the second set has and the keys only
      the first set has partition the union. */
  lemma KeyPartition(a: set<string>, b: set<string>)
    ensures (a * b) !! (b - a) && ((a * b) + (b - a)) !! (a - b)
    ensures (a * b) + (b - a) + (a - b) == a + b
  {
  }
}

=== FILE: wrappers.dfy ===
/** Success-or-error results for the lookups and assignments that can fail. */
module Wrappers {

  datatype Option<+T> = None | Some(value: T)

  datatype Result<+T, +E> = Ok(value: T) | Err(error: E)
}
